=== FILE: README.md ===
# Hatrac REST core: byte ranges, names and ACL addresses in Dafny

This project models the request logic of Hatrac's REST layer: `hatrac/rest/core.py`
and `hatrac/rest/acl.py`. Hatrac is an object store.

The model has seven modules:

- `Strings`: the Python string operations the handlers use. These are one-character
  `split` and `join`, ASCII `lower`, whitespace `strip` and decimal `int`, with the
  algebra that connects them.
- `RestErrors`: the `RestException` classes with their status lines, default
  messages and `text/plain` headers. It also has the `web_method` wrapper, which
  refuses an unauthenticated client and maps each storage-layer error to its REST
  error, and `update_response` and `delete_response`.
- `Names`: `_fullname` (canonical resource names), `in_content_type` (media-type
  normalisation) and `resolve_name_or_version`.
- `Ranges`: the byte-range engine of `get_content`. It parses the `Range` header,
  keeps the slices that start inside the entity, and decides among 200, 206, 416 and
  501. It also builds the reply headers and body, and the errors raised.
- `RangeSpecs`: an independent statement of the same engine in the terms of
  RFC 7233. It covers byte-range-spec syntax and satisfiability (section 2.1),
  the 416 answer (section 4.4) and the single-part 206 reply (section 4.1). Lemmas show that
  `Ranges` decides every readable header as this reference says.
- `Addresses`: the nine anchored URL patterns of `ACLEntry`, `ACL` and `ACLs`, read
  as one grammar. `Render` writes an address and `Parse` reads one.
  - Parsing is the exact inverse of rendering, so no path matches two patterns.
    Both statements read a pattern as matching the whole path; see "Left out"
    for a path ending in a newline.
  - The trailing `/` is optional for category and whole-set addresses and refused
    for entries.
- `AclHandlers`: the three ACL handlers.
  - Which methods each class answers.
  - The ordered input checks of a whole-ACL `PUT`.
  - The one directory call a request makes, and the reply it gets.

  The directory is opaque. A handler names the call it makes: set or drop a role,
  set or clear an ACL, or read a part of the ACLs. The directory's answer is a
  parameter.

The engine follows the code where it departs from RFC 7233:

- A unit other than `bytes` (in any case) is answered 501; section 3.1 says to
  ignore it.
- A suffix `-0` counts as a syntax error, so the header is ignored. Section 2.1
  calls it valid but unsatisfiable.
- Two or more satisfiable specs are answered 501; they are not merged.
- A non-zero suffix such as `bytes=-5` against an empty entity is answered 416.
  Section 2.1 calls such a suffix satisfiable whatever the entity's length.

## Model

| member | source | states |
|---|---|---|
| RestErrors.StatusCode | hatrac/rest/core.py:103-141 | every error class answers with a client or server error status (4xx or 5xx) |
| RestErrors.ReadStatusText | hatrac/rest/core.py:103-141 | a status line written as code, space and reason phrase reads back as its code |
| RestErrors.StatusLine | hatrac/rest/core.py:103-141 | each class's `status` string announces exactly the code the class answers with |
| RestErrors.ErrorReply | hatrac/rest/core.py:86-101 | a raised error is sent with the status its class's status line announces, its own headers and its body as the one chunk |
| RestErrors.StatusCodeInjective | hatrac/rest/core.py:103-141 | no two error classes share a status code |
| RestErrors.DefaultMessage | hatrac/rest/core.py:103-141 | every error class has a non-empty default message |
| RestErrors.MergedHeaders | hatrac/rest/core.py:90-99 | supplied headers are added to `Content-Type: text/plain` and override it; with none supplied, the class headers are used |
| RestErrors.MessageLine | hatrac/rest/core.py:100-101 | the error body is the message followed by exactly one newline |
| RestErrors.NewError | hatrac/rest/core.py:94-101 | an error carries its kind, the merged headers, and a body that is the given message (or the class default when none or empty) plus `\n` |
| RestErrors.NewBadRange | hatrac/rest/core.py:131-137 | a 416 error built with a size carries `Content-Range: bytes */<size>`; without one it is a plain error |
| RestErrors.RestKindOf | hatrac/rest/core.py:167-176 | each storage-layer error maps to one of BadRequest, Unauthorized, Forbidden, NotFound or Conflict |
| RestErrors.RestKindOfInjective | hatrac/rest/core.py:167-176 | distinct storage-layer errors get distinct statuses: the mapping is one-to-one |
| RestErrors.Translate | hatrac/rest/core.py:167-176 | a storage-layer error becomes its REST error with plain-text headers and its own message (or the class default) plus `\n` as body |
| RestErrors.WebMethod | hatrac/rest/core.py:157-176 | an unauthenticated client gets 401 with the authentication message; otherwise the handler's reply passes through, storage errors are translated, REST errors are sent as raised, anything else is a 500 |
| RestErrors.CoreErrorBody | hatrac/rest/core.py:94-101 | a translated storage error is a one-line plain-text body ending in `\n`: the error's text when non-empty, else the class default |
| RestErrors.UpdateResponse | hatrac/rest/core.py:352-355 | an update is answered with the status `204 No Content` announces, no headers and an empty body |
| RestErrors.DeleteResponse | hatrac/rest/core.py:347-350 | a deletion is answered with the status `204 No Content` announces, no headers and an empty body |
| Names.NonEmpty | hatrac/rest/core.py:201 | the filter keeps only non-empty pieces, each taken from the input |
| Names.NonEmptyConcat | hatrac/rest/core.py:201 | filtering distributes over concatenation |
| Names.Segments | hatrac/rest/core.py:201 | name segments are non-empty and slash-free |
| Names.SegmentsAroundSlash | hatrac/rest/core.py:201 | a slash between two texts separates their segments and adds none |
| Names.Fullname | hatrac/rest/core.py:200-203 | a canonical name starts with `/`, is `/` exactly when there are no segments, and otherwise splits into the segments of `path + name`, none empty |
| Names.FullnameIdempotent | hatrac/rest/core.py:200-203 | canonicalising a canonical name, as path or as name, changes nothing |
| Names.SameSegmentsSameFullname | hatrac/rest/core.py:200-203 | texts with the same segments have the same canonical name |
| Names.FullnameIgnoresDoubledSlash | hatrac/rest/core.py:200-203 | `a//b` and `a/b` have the same canonical name |
| Names.FullnameIgnoresLeadingSlash | hatrac/rest/core.py:200-203 | a leading slash does not change the canonical name |
| Names.FullnameIgnoresTrailingSlash | hatrac/rest/core.py:200-203 | a trailing slash does not change the canonical name |
| Names.FullnameOfNothing | hatrac/rest/core.py:201-202 | empty (or absent) path and name canonicalise to `/` |
| Names.InContentType | hatrac/rest/core.py:223-228 | absent exactly when the header is absent; otherwise holds no `;`, no surrounding whitespace and no upper case; a header with no `;` and no surrounding whitespace gives its lower-case form |
| Names.InContentTypeIgnoresCase | hatrac/rest/core.py:226 | a header and its lower-case form give the same media type |
| Names.InContentTypeIgnoresPadding | hatrac/rest/core.py:226 | whitespace around a header does not change the media type |
| Names.MediaTypeShape | hatrac/rest/core.py:226 | lower-casing, cutting at the first `;` and stripping leaves no `;`, no surrounding space and no upper case |
| Names.InContentTypeIgnoresParameters | hatrac/rest/core.py:226 | parameters after the first `;` never change the media type |
| Names.InContentTypeIdempotent | hatrac/rest/core.py:223-228 | normalising a normalised media type changes nothing |
| Names.InContentTypeOfNormal | hatrac/rest/core.py:226 | a media type already lower-case, stripped and free of `;` is returned as is |
| Names.ResolveNameOrVersion | hatrac/rest/core.py:217-221 | a version lookup exactly when the captured version is non-empty, always under the canonical name |
| Strings.Split | hatrac/rest/core.py:201 | `split` gives at least one piece, none containing the separator |
| Strings.SplitCount | hatrac/rest/core.py:201 | `split` gives one piece more than there are separators |
| Strings.SplitConcat | hatrac/rest/core.py:201 | splitting at a separator present in the text splits the two sides independently |
| Strings.JoinSplit | hatrac/rest/core.py:202 | joining the pieces of a split gives back the text |
| Strings.SplitJoin | hatrac/rest/core.py:202 | splitting a join of separator-free pieces gives back the pieces |
| Strings.Join | hatrac/rest/core.py:202 | a join opens with its first piece |
| Strings.JoinCount | hatrac/rest/core.py:202 | joining n separator-free pieces puts exactly n - 1 separators into the text |
| Strings.SplitOnce | hatrac/rest/core.py:253 | `split("-", 1)` into two: the text before the first dash and everything after it |
| Strings.LowerChar | hatrac/rest/core.py:226 | a capital becomes the small letter 32 code points above it, every other character is kept, and no capital is left |
| Strings.Lower | hatrac/rest/core.py:226 | lower-casing keeps the length and lower-cases each character |
| Strings.Strip | hatrac/rest/core.py:226 | `strip` gives a factor of the text with only whitespace cut from either side and none left around it, and leaves stripped text alone |
| Strings.StripPadded | hatrac/rest/core.py:226 | whitespace added around a text does not change what `strip` leaves |
| Strings.ParseNat | hatrac/rest/core.py:256 | the model's reader of an unsigned `int`: on text without surrounding whitespace it succeeds exactly on a non-empty string of decimal digits |
| Strings.ParseNatPadded | hatrac/rest/core.py:256-279 | whitespace around a numeral does not change the number `int` reads |
| Strings.ParsedAlphabet | hatrac/rest/core.py:256-279 | text the model's unsigned reader accepts holds only digits and whitespace |
| Strings.ParseNatToString | hatrac/rest/core.py:256 | reading back the decimal text of a number gives the number |
| Strings.ParseNatDigit | hatrac/rest/core.py:256-279 | one digit reads as its value |
| Strings.ParseNatAppend | hatrac/rest/core.py:256-279 | appending a digit to a numeral multiplies its number by ten and adds the digit; with `ParseNatDigit` this fixes the number of every digit string |
| Strings.ParseNatLeadingZero | hatrac/rest/core.py:256-279 | a leading zero does not change the number, as `int("05") == 5` |
| Strings.SplitOnceAt | hatrac/rest/core.py:253 | `split("-", 1)` cuts at the first dash, whatever follows it |
| Ranges.ParseSpec | hatrac/rest/core.py:253-284 | every slice the parser builds is non-empty or ends exactly at the entity end |
| Ranges.ParseSpecs | hatrac/rest/core.py:252-284 | the loop gives one slice per spec |
| Ranges.ParseSpecsPointwise | hatrac/rest/core.py:252-284 | the loop fails exactly when some spec fails, and otherwise gives each spec's own slice, in order |
| Ranges.Intersects | hatrac/rest/core.py:286-290 | a slice passes exactly when it starts inside the entity and does not run backwards |
| Ranges.Surviving | hatrac/rest/core.py:286-292 | the filter keeps only given slices that pass, and keeps every given slice that passes |
| Ranges.SurvivingConcat | hatrac/rest/core.py:292 | filtering a concatenation filters each part, keeping the order |
| Ranges.FilterIsStartInside | hatrac/rest/core.py:286-287 | for every slice the parser can build, the filter reduces to `start < nbytes` |
| Ranges.ChooseSlice | hatrac/rest/core.py:294-308 | a chosen slice lies inside the entity and is never the whole entity; 416 reports the entity size; 501 only for several ranges; nothing is partial in an empty entity |
| Ranges.DecideSpecs | hatrac/rest/core.py:252-315 | after the unit: a partial answer lies inside the entity and is never the whole entity; 416 reports the entity size; 501 only for several ranges |
| Ranges.DecideRange | hatrac/rest/core.py:246-315 | a header decision: 206 only for `0 <= start < stop <= nbytes` that is not the whole entity, 416 with the entity size, 501 never for missing range support |
| Ranges.RangeOutcomeOf | hatrac/rest/core.py:231-245 | no header or an empty one asks for the whole entity; a non-empty header on a resource without a size or ranged access is 501; otherwise the header is decided against the size; a partial answer lies inside the entity |
| Ranges.NoRangeIsWholeEntity | hatrac/rest/core.py:233-234 | without a `Range` header, or with an empty one, the reply is 200 with the content's headers and, for `GET`, its body |
| Ranges.RangeWithoutSupportNotImplemented | hatrac/rest/core.py:242-244 | a non-empty `Range` header on a resource without a size or ranged access is refused 501 |
| Ranges.PartialRangeText | hatrac/rest/core.py:320-323 | a 206 `Content-Range` value reads back as the first byte, the last byte and the entity length |
| Ranges.ContentHeaders | hatrac/rest/core.py:328-332 | a content reply always has `Content-Length` and never `Content-Range` |
| Ranges.RangeError | hatrac/rest/core.py:244-302 | 416 carries `Content-Range: bytes */nbytes`; the other errors are 501 |
| Ranges.GetContent | hatrac/rest/core.py:230-336 | the reply is 200 or 206 with the content's length and the body only for `GET`; 206 comes with `bytes start-last/nbytes`; an error exactly for 416 and 501 decisions, with `bytes */nbytes` on a 416 |
| Ranges.HeadMatchesGet | hatrac/rest/core.py:334-336 | `HEAD` gets the reply or error of `GET` with no body |
| Ranges.ServeContent | hatrac/rest/core.py:242-326 | a 416 or 501 decision raises its range error before any content is read; after a 200 or 206 decision a failed content read is raised as it failed, and a successful one gets `get_content`'s reply |
| Ranges.RangeErrorIgnoresRead | hatrac/rest/core.py:242-326 | a 416 or 501 decision is answered the same whatever the content read returns |
| RangeSpecs.ParseSpecOfDenoted | hatrac/rest/core.py:253-284 | on a text of a byte-range-spec (whitespace allowed around each number), the parser succeeds exactly for accepted specs and builds the slice the spec selects |
| RangeSpecs.ParseSpecDenotes | hatrac/rest/core.py:253-284 | everything the parser accepts is a text of an accepted spec |
| RangeSpecs.SurvivorsAgree | hatrac/rest/core.py:286-292 | the filter keeps, in order, exactly the slices of the satisfiable specs |
| RangeSpecs.DecideSpecsMatchesExpected | hatrac/rest/core.py:252-308 | the specs of a `bytes` header are decided as the reference says |
| RangeSpecs.ChooseMatchesExpected | hatrac/rest/core.py:286-308 | slices of accepted specs are chosen among as the reference says |
| RangeSpecs.HeaderDecidesSpecs | hatrac/rest/core.py:247-252 | a `bytes=` header is decided by its comma-separated list |
| RangeSpecs.DecideMatchesExpected | hatrac/rest/core.py:246-308 | every readable `bytes` header is decided as the RFC-phrased reference says |
| RangeSpecs.BytesHeaderParts | hatrac/rest/core.py:247 | `bytes=<list>` splits at its one `=` into the unit and the list |
| RangeSpecs.UnreadableSpecIgnored | hatrac/rest/core.py:312-315 | one unreadable spec anywhere in the list makes the whole header ignored |
| RangeSpecs.UnitCaseInsensitive | hatrac/rest/core.py:249 | the unit `bytes` is matched in any case |
| RangeSpecs.UnknownUnitNotImplemented | hatrac/rest/core.py:247-250 | a header with exactly one `=` whose unit is not `bytes` in any case is answered 501, before the specs are read |
| RangeSpecs.NotOneEqualsIgnored | hatrac/rest/core.py:247 | a header without exactly one `=` is ignored |
| RangeSpecs.EmptyEntityUnsatisfiable | hatrac/rest/core.py:286-298 | against an empty entity every header of accepted specs is 416 |
| RangeSpecs.LongSuffixIsFull | hatrac/rest/core.py:254-269 | a suffix at least as long as a non-empty entity is the whole entity |
| RangeSpecs.TwoSatisfiableNotImplemented | hatrac/rest/core.py:299-302 | two satisfiable specs are 501 |
| RangeSpecs.ClosedRangeDecision | hatrac/rest/core.py:278-308 | a closed range inside the entity, other than the whole entity, is the slice `[first, last + 1)` |
| RangeSpecs.ClosedRangeReply | hatrac/rest/core.py:317-324 | such a range is sent 206 with `Content-Range: bytes first-last/nbytes` |
| RangeSpecs.PartialReply | hatrac/rest/core.py:317-324 | a header decided as one slice is sent 206 for that slice |
| RangeSpecs.BeyondEntityUnsatisfiable | hatrac/rest/core.py:286-298 | an open range `first-` starting at or past the end is 416 for the entity size |
| RangeSpecs.UnreadableHeaderLikeNoHeader | hatrac/rest/core.py:312-315 | an unreadable header gets exactly the reply of no header |
| Addresses.ParseTarget | hatrac/rest/acl.py:13-15 | the part before `;acl` reads as the root, an unversioned or a versioned target, all of valid segments |
| Addresses.ParseAclTail | hatrac/rest/acl.py:53-55 | the part after `;acl` reads as the whole set, a category or an entry, each of valid segments |
| Addresses.Parse | hatrac/rest/acl.py:11-107 | an accepted path is a valid address |
| Addresses.PatternOf | hatrac/rest/acl.py:11-107 | the pattern position says which part (entry, category, whole set) and which target form (versioned, unversioned, root) matched |
| Addresses.HandlerOf | hatrac/rest/acl.py:11-109 | patterns 0-2 go to `ACLEntry`, 3-5 to `ACL`, 6-8 to `ACLs` |
| Addresses.CapturesOf | hatrac/rest/acl.py:12-15 | the version group is empty exactly for unversioned and root forms; root forms capture an empty path and name; access and role groups are present as the pattern has them |
| Addresses.ParseTargetText | hatrac/rest/acl.py:13-15 | a target's text holds no `;` and reads back as the target |
| Addresses.ParseTailText | hatrac/rest/acl.py:53-55 | an ACL tail reads back as the part |
| Addresses.Render | hatrac/rest/acl.py:11-107 | formatting a valid address and parsing it gives the address back |
| Addresses.ParseSound | hatrac/rest/acl.py:11-107 | every accepted path is the rendering of the address parsed from it |
| Addresses.ParseIffRender | hatrac/rest/acl.py:11-107 | the parser returns an address exactly when the address is valid and renders as the path |
| Addresses.RenderInjective | hatrac/rest/acl.py:11-107 | distinct valid addresses render differently: the path/name/version/access/role split is unique |
| Addresses.PatternsExclusive | hatrac/rest/acl.py:11-107 | no request path matches two of the nine patterns |
| Addresses.ParseFindsPattern | hatrac/rest/acl.py:11-107 | a path matches some pattern exactly when the parser accepts it, and then the pattern it reports |
| Addresses.EntryTailRejectsSlash | hatrac/rest/acl.py:13-15 | `/access/role/` is no ACL tail |
| Addresses.EntryRejectsTrailingSlash | hatrac/rest/acl.py:13-15 | an entry address with a trailing slash matches no pattern |
| Addresses.TrailingSlashOptional | hatrac/rest/acl.py:53-55 | a category or whole-set address matches with and without a trailing slash, reaching the same handler with the same captures |
| Addresses.LookupOf | hatrac/rest/core.py:217-221 | a lookup resolves a version exactly for a versioned address with a non-empty version, and then that version; otherwise it resolves by name |
| Addresses.RootResolvesToSlash | hatrac/rest/acl.py:15 | the root forms resolve the name `/` |
| Addresses.TargetFullname | hatrac/rest/core.py:200-203 | a target's canonical name is its segments joined under a leading slash |
| AclHandlers.ReadAclArray | hatrac/rest/acl.py:65-73 | the first three checks, in order: not JSON media type, then unreadable JSON, then not an array, each a 400 with its own message |
| AclHandlers.EntryCheckAsWritten | hatrac/rest/acl.py:74-76 | as written, the entry loop reports the first entry of every non-empty array |
| AclHandlers.FirstNonString | hatrac/rest/acl.py:74-76 | as intended, the entry loop reports the first entry that is not a string, and nothing exactly when all are strings |
| AclHandlers.Values | hatrac/rest/acl.py:81 | the ACL handed to `set_acl` holds the strings of the array, in order |
| AclHandlers.AclInputAsWritten | hatrac/rest/acl.py:64-76 | as written, only an empty JSON array passes the checks |
| AclHandlers.AclInput | hatrac/rest/acl.py:64-76 | accepts exactly a JSON array of strings sent as `application/json`, giving its strings; otherwise the 400 of the first failing check |
| AclHandlers.AsWrittenAcceptsOnlyEmpty | hatrac/rest/acl.py:72-76 | as written, the only body that gets past the checks is `[]` |
| AclHandlers.AsWrittenRefusesStringEntry | hatrac/rest/acl.py:74-76 | `["admin"]` is refused as written and accepted as intended |
| AclHandlers.AsWrittenAgreesBeforeEntries | hatrac/rest/acl.py:65-73 | both versions refuse the same inputs with the same errors up to the entry loop |
| AclHandlers.JsonMediaTypeNormal | hatrac/rest/acl.py:66 | `application/json` is its own normal form |
| AclHandlers.ViewOf | hatrac/rest/acl.py:46-117 | `_GET` reads `.acls`, `.acls[access]` or `.acls[access][role]` as the address names |
| AclHandlers.ChangeStep | hatrac/rest/acl.py:22-44 | a change is one directory call; success gives the handler's response, failure is raised |
| AclHandlers.ReadStep | hatrac/rest/acl.py:46-49 | a read is one directory call; a failure is raised |
| AclHandlers.Serve | hatrac/rest/acl.py:17-117 | at most one call, always on the addressed resource; reads fetch the addressed part; no call exactly when the ACL input is refused; `set_acl` gets the roles of acceptable input only |
| AclHandlers.Handle | hatrac/rest/acl.py:11-117 | only paths of the nine patterns are handled; at most one directory call; none for an unauthenticated client |
| AclHandlers.DisallowedMethodRefused | hatrac/rest/acl.py:109-117 | a method the class lacks gets 405 and no call |
| AclHandlers.Allowed | hatrac/rest/acl.py:17-117 | `ACLs` answers exactly `GET` and `HEAD`; `ACLEntry` and `ACL` answer exactly `GET`, `HEAD`, `PUT` and `DELETE` |
| AclHandlers.UnauthenticatedRefused | hatrac/rest/core.py:157-161 | an unauthenticated client gets 401 and no directory call |
| AclHandlers.BadAclInputTouchesNothing | hatrac/rest/acl.py:64-84 | refused ACL input gets its 400 and no directory call, so no mutation |
| AclHandlers.SetAclOnlyFromAcceptableInput | hatrac/rest/acl.py:77-84 | a whole ACL is replaced only with the strings of acceptable input, on the addressed resource |
| AclHandlers.ChangeReplies | hatrac/rest/acl.py:22-95 | a change the directory accepts is 204 with no body; a refused one is answered as the wrapper translates it |
| AclHandlers.ChangeMatchesRequest | hatrac/rest/acl.py:22-95 | entry `PUT` sets the role, entry `DELETE` drops it, category `DELETE` clears the ACL |
| AclHandlers.ReadFailureTranslated | hatrac/rest/core.py:163-176 | a read the directory fails is answered as the wrapper translates the failure |
| AclHandlers.ReadReplies | hatrac/rest/acl.py:46-49 | a 416 or 501 decision is answered with its range error whatever the content read gives; otherwise a failed content read is answered as the wrapper translates it, and a successful one with `get_content`'s reply |
| AclHandlers.HeadIsGetWithoutBody | hatrac/rest/core.py:357-372 | `HEAD` makes the call `GET` makes and gets its reply without the body |

## Left out

- Logging, the audit line, trace events and timestamps (`core.py:53-85`, `177-189`): these are I/O and wall-clock time.
- Credential resolution by webauthn2 is a foreign library. The client is reduced to whether authentication succeeded.
- The random request id and the `web.ctx` request state are left out.
- Streaming: a body is a sequence of chunks, and a failure while the chunks are being sent is not modelled.
- The directory is opaque. `name_resolve`, `version_resolve`, `acls[...]`, `set_acl_role`, `drop_acl_role`, `set_acl` and `clear_acl` are each one named call, and the directory's answer is a parameter.
- `get_content` and `get_content_range` are not named calls. What they return, or the failure they raise, is part of the directory's answer to a read. It is consulted only after the range decision, as in `core.py:317-326`. One content value stands for both: the model does not tell the whole entity from the slice read.
  - A missing access or role in `.acls[...]` is one of the failures that answer may carry.
- Switching an object to its current version before a range request (`core.py:238-240`) happens inside the directory. The model receives the size it yields, or none when the resource cannot serve ranges.
- The Base64 encoding of `Content-MD5` (`core.py:332`): the digest header is taken as the storage layer returns it.
- `create_response` and `resolve_upload` are not used by the ACL handlers.
- The `NoMethod` branches of `GET` and `HEAD` (`core.py:362`, `371`) are unreachable from the ACL handlers: all three classes define `_GET`.
- Which handler serves a path outside the nine ACL patterns is left out; `Handle` answers `None` for such a path.
- The web framework's 405 and 500 replies: only their status is modelled.
- JSON decoding (`acl.py:69`): the body arrives already parsed, or as `None` when it is not JSON.
- Strings.ParseNat: reads decimal digits with optional surrounding whitespace, but no sign. Python's `int` also accepts a leading `+` or `-` (`int('-5') == -5`), so the model refuses text the source reads.
- Ranges.ParseSpec: inherits the missing sign from `Strings.ParseNat`. A signed bound the source reads makes the spec unreadable here, so the whole header is ignored. `0-+5` is read as `0-5` by the source. On a 10-byte entity, `bytes=--5` gives the source a suffix length of -5 and the slice `[15, 10)`, which the filter drops, so the source answers 416; the model answers 200. Likewise `bytes=0-1,--5` is 206 in the source and 200 here. `RangeSpecs.UnreadableSpecIgnored` and `RangeSpecs.UnreadableHeaderLikeNoHeader` count such signed specs as unreadable.
- AclHandlers.Shown: strings inside an array are shown as `u'…'` with no escaping. Numbers, booleans, null and objects carry the text Python prints for them.
- Strings.Lower: ASCII case mapping only. Strings.Strip: ASCII whitespace only.
- RangeSpecs.BeyondEntityUnsatisfiable: states the 416 decision, not the reply. For a non-empty header and a resource with a size, `Ranges.RangeOutcomeOf` is that decision, and the reply to a 416 decision (`Content-Range: bytes */nbytes`) is part of `Ranges.GetContent`'s own contract.
- RangeSpecs.EmptyEntityUnsatisfiable: states the decision only; the reply follows from `Ranges.GetContent` as above.
- AclHandlers.Serve: uses the corrected entry check `AclHandlers.AclInput`, not the one written in the source; see Findings.
- Concurrency between requests: each request is modelled alone.
- Addresses.PatternsExclusive: reads each pattern as matching the whole path. web.py anchors patterns with `$`, and Python's `$` also matches just before a final newline, so `/x;acl/read/\n` matches both an `ACLEntry` and an `ACL` pattern.
- Addresses.ParseFindsPattern: a path with a final newline, such as `/x;acl\n`, is routed by the patterns at `acl.py:106` but refused by `Parse`.
- RestErrors.StatusLine: the status string is modelled as the code, a space and the reason phrase, with the reason phrases of `core.py:103-141`; only the code it announces is stated.

## Findings

| source | as written | input that shows it | evidently intended | confidence | as-written member | corrected member |
|---|---|---|---|---|---|---|
| hatrac/rest/acl.py:74-76 | the entry loop tests `type(acl) != str`, the type of the whole array, which is always true, so every non-empty array is refused | `PUT /ns/obj;acl/read` with `Content-Type: application/json` and body `["admin"]` gets 400 `ACL entry "admin" is not a string.`; only `[]` reaches `set_acl` | refuse the first entry that is not a string (e.g. `isinstance(entry, basestring)`, since decoded JSON strings are `unicode`), accept an array of strings | not executed; high | AclHandlers.AclInputAsWritten | AclHandlers.AclInput |

=== FILE: acl_handlers.dfy ===
/** The three ACL handlers, `ACLEntry`, `ACL` and `ACLs`: which methods each
    answers, the input checks of a whole-ACL `PUT`, the one directory call a
    request makes, and the reply. The directory itself is not modelled: a
    handler names the call it makes, and the directory's answer to that call
    is a parameter. */
module AclHandlers {
  import opened Wrappers
  import opened Strings
  import opened RestErrors
  import opened Names
  import opened Ranges
  import opened Addresses

  /* ----- request input ----- */

  /** A parsed JSON document: a string, an array, or any other value with the
      text Python's `%s` gives for it. */
  datatype Json = JString(value: string) | JArray(items: seq<Json>) | JOther(shown: string)

  /** The text `%s` gives for a value: a string as itself, an array as the
      list of its members' representations. */
  function Shown(j: Json): string
    decreases j, 2, 0
  {
    match j
    case JString(s) => s
    case JOther(t) => t
    case JArray(items) => "[" + ShownFrom(j, 0) + "]"
  }

  /** The representation of a value inside a list: a string quoted as a unicode literal. */
  function Repr(j: Json): string
    decreases j, 3, 0
  {
    if j.JString? then "u'" + j.value + "'" else Shown(j)
  }

  /** The representations of the array members from position `k` on, separated by `, `. */
  function ShownFrom(j: Json, k: nat): string
    requires j.JArray? && k <= |j.items|
    decreases j, 1, |j.items| - k
  {
    if k == |j.items| then ""
    else if k + 1 == |j.items| then Repr(j.items[k])
    else Repr(j.items[k]) + ", " + ShownFrom(j, k + 1)
  }

  const JsonOnlyMessage: string := "Only application/json input is accepted for ACLs."
  const UnreadableMessage: string := "Error reading JSON input."
  const NotFlatMessage: string := "ACL input must be a flat JSON array."
  const JsonMediaType: string := "application/json"

  function NotAStringMessage(entry: Json): string
  {
    "ACL entry \"" + Shown(entry) + "\" is not a string."
  }

  function BadInput(message: string): (e: RestError)
    ensures e.kind == BadRequest
  {
    NewError(BadRequest, Some(message), map[])
  }

  /** The first three checks of `ACL.PUT`, in order: the media type, the JSON
      syntax, the array shape. `body` is `None` when the input is not JSON. */
  function ReadAclArray(contentType: Option<string>, body: Option<Json>): (r: Result<seq<Json>, RestError>)
    ensures r.Ok? <==> InContentType(contentType) == Some(JsonMediaType) && body.Some? && body.value.JArray?
    ensures r.Ok? ==> r.value == body.value.items
    ensures InContentType(contentType) != Some(JsonMediaType) ==> r == Err(BadInput(JsonOnlyMessage))
    ensures InContentType(contentType) == Some(JsonMediaType) && body.None? ==> r == Err(BadInput(UnreadableMessage))
    ensures InContentType(contentType) == Some(JsonMediaType) && body.Some? && !body.value.JArray? ==>
              r == Err(BadInput(NotFlatMessage))
  {
    if InContentType(contentType) != Some(JsonMediaType) then Err(BadInput(JsonOnlyMessage))
    else if body.None? then Err(BadInput(UnreadableMessage))
    else if !body.value.JArray? then Err(BadInput(NotFlatMessage))
    else Ok(body.value.items)
  }

  /** The entry loop as the source writes it: it tests the type of the whole
      array instead of the entry, and an array is never a string, so the first
      entry is always reported. */
  function EntryCheckAsWritten(acl: seq<Json>): (bad: Option<Json>)
    ensures bad.None? <==> |acl| == 0
    ensures bad.Some? ==> bad.value == acl[0]
  {
    if |acl| == 0 || JArray(acl).JString? then None else Some(acl[0])
  }

  /** The entry loop as intended: the first entry that is not a string. */
  function FirstNonString(acl: seq<Json>): (bad: Option<Json>)
    ensures bad.None? <==> forall i :: 0 <= i < |acl| ==> acl[i].JString?
    ensures bad.Some? ==> exists i :: 0 <= i < |acl| && acl[i] == bad.value && !acl[i].JString?
                                      && forall k :: 0 <= k < i ==> acl[k].JString?
  {
    if |acl| == 0 then None
    else if !acl[0].JString? then Some(acl[0])
    else
      var rest := FirstNonString(acl[1..]);
      assert forall i :: 1 <= i < |acl| ==> acl[i] == acl[1..][i - 1];
      if rest.Some? then
        ghost var i :| 0 <= i < |acl[1..]| && acl[1..][i] == rest.value && !acl[1..][i].JString?
                       && forall k :: 0 <= k < i ==> acl[1..][k].JString?;
        assert acl[i + 1] == rest.value;
        rest
      else rest
  }

  /** The role names of an array of strings. */
  function Values(acl: seq<Json>): (roles: seq<string>)
    requires forall i :: 0 <= i < |acl| ==> acl[i].JString?
    ensures |roles| == |acl|
    ensures forall i :: 0 <= i < |acl| ==> roles[i] == acl[i].value
  {
    seq(|acl|, i requires 0 <= i < |acl| => acl[i].value)
  }

  /** An input `ACL.PUT` should accept: JSON, an array, strings only. */
  predicate AcceptableAcl(contentType: Option<string>, body: Option<Json>)
  {
    && InContentType(contentType) == Some(JsonMediaType)
    && body.Some? && body.value.JArray?
    && forall i :: 0 <= i < |body.value.items| ==> body.value.items[i].JString?
  }

  /** The input checks of `ACL.PUT` as written: the new ACL handed on, or the
      400 error raised. */
  function AclInputAsWritten(contentType: Option<string>, body: Option<Json>): (r: Result<seq<Json>, RestError>)
    ensures r.Ok? ==> r.value == []
    ensures r.Ok? <==> ReadAclArray(contentType, body) == Ok([])
    ensures r.Err? ==> r.error.kind == BadRequest
  {
    match ReadAclArray(contentType, body)
    case Err(e) => Err(e)
    case Ok(acl) =>
      match EntryCheckAsWritten(acl)
      case Some(entry) => Err(BadInput(NotAStringMessage(entry)))
      case None => Ok(acl)
  }

  /** The input checks of `ACL.PUT` as intended: the role names of the new ACL,
      or the 400 error of the first check that fails. */
  function AclInput(contentType: Option<string>, body: Option<Json>): (r: Result<seq<string>, RestError>)
    ensures r.Ok? <==> AcceptableAcl(contentType, body)
    ensures r.Ok? ==> |r.value| == |body.value.items|
                      && forall i :: 0 <= i < |r.value| ==> body.value.items[i] == JString(r.value[i])
    ensures r.Err? ==> r.error.kind == BadRequest
    ensures ReadAclArray(contentType, body).Err? ==> r == Err(ReadAclArray(contentType, body).error)
    ensures ReadAclArray(contentType, body).Ok? && r.Err? ==>
              exists i :: 0 <= i < |body.value.items| && !body.value.items[i].JString?
                          && (forall k :: 0 <= k < i ==> body.value.items[k].JString?)
                          && r.error == BadInput(NotAStringMessage(body.value.items[i]))
  {
    match ReadAclArray(contentType, body)
    case Err(e) => Err(e)
    case Ok(acl) =>
      match FirstNonString(acl)
      case Some(entry) => Err(BadInput(NotAStringMessage(entry)))
      case None => Ok(Values(acl))
  }

  /** As written, only the empty array gets past the entry check. */
  lemma AsWrittenAcceptsOnlyEmpty(contentType: Option<string>, body: Option<Json>)
    requires AclInputAsWritten(contentType, body).Ok?
    ensures body == Some(JArray([]))
  {
  }

  /** The JSON media type is its own normal form. */
  lemma JsonMediaTypeNormal()
    ensures InContentType(Some(JsonMediaType)) == Some(JsonMediaType)
  {
    var t := JsonMediaType;
    assert ';' !in t by {
      assert forall i :: 0 <= i < |t| ==> t[i] != ';';
    }
    assert forall i :: 0 <= i < |t| ==> !IsUpper(t[i]);
    assert Stripped(t);
    InContentTypeOfNormal(t);
  }

  /** A one-role ACL in JSON shows the discrepancy: as written it is refused
      with a 400 naming the role as "not a string", as intended it is accepted. */
  lemma AsWrittenRefusesStringEntry()
    ensures var body := Some(JArray([JString("admin")]));
            && AclInputAsWritten(Some(JsonMediaType), body) == Err(BadInput(NotAStringMessage(JString("admin"))))
            && AclInput(Some(JsonMediaType), body) == Ok(["admin"])
  {
    var acl := [JString("admin")];
    var body := Some(JArray(acl));
    assert ReadAclArray(Some(JsonMediaType), body) == Ok(acl) by {
      JsonMediaTypeNormal();
    }
    assert AclInputAsWritten(Some(JsonMediaType), body) == Err(BadInput(NotAStringMessage(JString("admin")))) by {
      assert EntryCheckAsWritten(acl) == Some(JString("admin"));
    }
    assert AclInput(Some(JsonMediaType), body) == Ok(["admin"]) by {
      assert FirstNonString(acl) == None;
      assert Values(acl) == ["admin"];
    }
  }

  /** The refusal names the entry in the source's words. */
  lemma NotAStringMessageText()
    ensures NotAStringMessage(JString("admin")) == "ACL entry \"admin\" is not a string."
  {
  }

  /** Both versions agree on every input they refuse before looking at entries. */
  lemma AsWrittenAgreesBeforeEntries(contentType: Option<string>, body: Option<Json>)
    requires ReadAclArray(contentType, body).Err? || ReadAclArray(contentType, body) == Ok([])
    ensures AclInputAsWritten(contentType, body).Err? <==> AclInput(contentType, body).Err?
    ensures AclInputAsWritten(contentType, body).Err? ==>
              AclInputAsWritten(contentType, body).error == AclInput(contentType, body).error
  {
  }

  /* ----- directory calls ----- */

  /** A change to the ACLs of the resolved resource. */
  datatype AclChange =
    | SetAclRole(access: string, role: string)
    | DropAclRole(access: string, role: string)
    | SetAcl(access: string, roles: seq<string>)
    | ClearAcl(access: string)

  /** The part of the ACLs a read selects: `.acls`, `.acls[access]`, `.acls[access][role]`. */
  datatype AclView = AllAcls | OneAcl(access: string) | OneEntry(access: string, role: string)

  /** The one directory call a request makes: resolve the target, then change or read its ACLs. */
  datatype Call = Change(target: Lookup, change: AclChange) | Fetch(target: Lookup, view: AclView)

  /** What the directory hands back for a read: the resource's printed form,
      its size when it supports ranges, and what reading its content from
      storage gives, which may fail. */
  datatype Served = Served(what: string, nbytes: Option<nat>, content: Result<Content, Failure>)

  /** The directory's answer to whichever call is made. */
  datatype Directory = Directory(changed: Outcome<Failure>, fetched: Result<Served, Failure>)

  /** The HTTP methods a handler can be asked for. */
  datatype Method = Get | Head | Put | Delete | OtherMethod(name: string)

  datatype Request = Request(verb: Method, path: string, contentType: Option<string>,
                             body: Option<Json>, range: Option<string>)

  /** The calls a request made and the reply it got. */
  datatype Exchange = Exchange(calls: seq<Call>, reply: Reply)

  /** Inside the wrapper: the calls made and what the handler returned or raised. */
  datatype Step = Step(calls: seq<Call>, run: Result<Reply, Failure>)

  /** Every handler has `GET` and `HEAD`; `ACLEntry` and `ACL` also `PUT`
      and `DELETE`. So `ACLs` answers only reads, and the other two
      handlers answer all four methods. */
  function Allowed(h: Handler, m: Method): (b: bool)
    ensures h == AclsHandler ==> (b <==> m.Get? || m.Head?)
    ensures h != AclsHandler ==> (b <==> !m.OtherMethod?)
  {
    m.Get? || m.Head? || ((m.Put? || m.Delete?) && h != AclsHandler)
  }

  /** The web framework's reply to a method the handler class lacks; only its
      status is part of this model. */
  const MethodNotAllowed: Reply := Reply(405, map[], [])

  /** The part of the ACLs a `GET` of an address reads. */
  function ViewOf(p: AclPart): (v: AclView)
    ensures v.AllAcls? <==> p.WholeSet?
    ensures v.OneAcl? ==> p.Category? && p.access == v.access
    ensures v.OneEntry? ==> p == Entry(v.access, v.role)
  {
    match p
    case WholeSet(_) => AllAcls
    case Category(x, _) => OneAcl(x)
    case Entry(x, r) => OneEntry(x, r)
  }

  /** Make a change and answer `ok` when the directory accepts it. */
  function ChangeStep(target: Lookup, ch: AclChange, ok: Reply, dir: Directory): (s: Step)
    ensures s.calls == [Change(target, ch)]
    ensures dir.changed.Pass? ==> s.run == Ok(ok)
    ensures dir.changed.Fail? ==> s.run == Err(dir.changed.error)
  {
    Step([Change(target, ch)], match dir.changed
      case Pass => Ok(ok)
      case Fail(f) => Err(f))
  }

  /** `_GET` followed by `get_content`: read the selected part and send it. */
  function ReadStep(target: Lookup, view: AclView, range: Option<string>, getBody: bool, dir: Directory): (s: Step)
    ensures s.calls == [Fetch(target, view)]
    ensures dir.fetched.Err? ==> s.run == Err(dir.fetched.error)
  {
    Step([Fetch(target, view)], match dir.fetched
      case Err(f) => Err(f)
      case Ok(served) =>
        ServeContent(range, served.nbytes, served.what, served.content, getBody))
  }

  /** The handler method itself, run once the wrapper has authenticated the client. */
  function Serve(a: Address, req: Request, dir: Directory): (s: Step)
    requires Allowed(HandlerOf(a), req.verb)
    ensures |s.calls| <= 1
    ensures forall c :: c in s.calls ==> c.target == LookupOf(a)
    ensures (req.verb.Get? || req.verb.Head?) ==> s.calls == [Fetch(LookupOf(a), ViewOf(a.part))]
    ensures s.calls == [] <==> req.verb.Put? && a.part.Category? && AclInput(req.contentType, req.body).Err?
    ensures s.calls == [] ==> s.run == Err(Raised(AclInput(req.contentType, req.body).error))
    ensures forall c :: c in s.calls && c.Change? && c.change.SetAcl? ==>
              && AcceptableAcl(req.contentType, req.body) && a.part.Category?
              && c.change == SetAcl(a.part.access, AclInput(req.contentType, req.body).value)
  {
    var target := LookupOf(a);
    if req.verb.Get? || req.verb.Head? then
      ReadStep(target, ViewOf(a.part), req.range, req.verb.Get?, dir)
    else if req.verb.Put? then
      if a.part.Entry? then ChangeStep(target, SetAclRole(a.part.access, a.part.role), UpdateResponse(), dir)
      else
        match AclInput(req.contentType, req.body)
        case Err(e) => Step([], Err(Raised(e)))
        case Ok(roles) => ChangeStep(target, SetAcl(a.part.access, roles), UpdateResponse(), dir)
    else if a.part.Entry? then ChangeStep(target, DropAclRole(a.part.access, a.part.role), DeleteResponse(), dir)
    else ChangeStep(target, ClearAcl(a.part.access), UpdateResponse(), dir)
  }

  /** A request to the ACL handlers: `None` when its path matches none of the
      nine patterns, otherwise the calls it makes and the reply. */
  function Handle(authenticated: bool, req: Request, dir: Directory): (x: Option<Exchange>)
    ensures x.None? <==> Parse(req.path).None?
    ensures x.Some? ==> |x.value.calls| <= 1
    ensures x.Some? && !authenticated ==> x.value.calls == []
  {
    match Parse(req.path)
    case None => None
    case Some(a) =>
      if !Allowed(HandlerOf(a), req.verb) then Some(Exchange([], MethodNotAllowed))
      else
        var s := Serve(a, req, dir);
        Some(Exchange(if authenticated then s.calls else [], WebMethod(authenticated, s.run)))
  }

  /* ----- properties of the exchange ----- */

  /** A method the handler class lacks is refused with 405 before anything else happens. */
  lemma DisallowedMethodRefused(authenticated: bool, req: Request, dir: Directory)
    requires Parse(req.path).Some?
    ensures var h := HandlerOf(Parse(req.path).value);
            !Allowed(h, req.verb) <==> Handle(authenticated, req, dir) == Some(Exchange([], MethodNotAllowed))
  {
  }

  /** A client without credentials gets 401 and the directory is not touched. */
  lemma UnauthenticatedRefused(req: Request, dir: Directory)
    requires Parse(req.path).Some? && Allowed(HandlerOf(Parse(req.path).value), req.verb)
    ensures var x := Handle(false, req, dir).value;
            && x.calls == []
            && x.reply.status == 401
            && x.reply.body == [AuthFailureMessage + "\n"]
  {
  }

  /** Input `ACL.PUT` refuses reaches no directory call and is answered 400 with its reason. */
  lemma BadAclInputTouchesNothing(req: Request, dir: Directory)
    requires Parse(req.path).Some? && Parse(req.path).value.part.Category?
    requires req.verb.Put? && AclInput(req.contentType, req.body).Err?
    ensures var x := Handle(true, req, dir).value;
            && x.calls == []
            && x.reply == ErrorReply(AclInput(req.contentType, req.body).error)
            && x.reply.status == 400
  {
  }

  /** A whole ACL is replaced only with the roles of acceptable input, on the addressed resource. */
  lemma SetAclOnlyFromAcceptableInput(authenticated: bool, req: Request, dir: Directory)
    requires Parse(req.path).Some?
    ensures var a := Parse(req.path).value;
            forall c :: c in Handle(authenticated, req, dir).value.calls && c.Change? && c.change.SetAcl? ==>
              && AcceptableAcl(req.contentType, req.body)
              && c == Change(LookupOf(a), SetAcl(a.part.access, AclInput(req.contentType, req.body).value))
  {
    var a := Parse(req.path).value;
    if Allowed(HandlerOf(a), req.verb) && authenticated {
      assert Handle(authenticated, req, dir).value.calls == Serve(a, req, dir).calls;
    }
  }

  /** A change the directory accepts is answered 204 with no body; one it
      refuses is answered as the wrapper translates the refusal. */
  lemma ChangeReplies(req: Request, dir: Directory)
    requires Parse(req.path).Some? && Allowed(HandlerOf(Parse(req.path).value), req.verb)
    requires req.verb.Put? || req.verb.Delete?
    requires !(req.verb.Put? && Parse(req.path).value.part.Category? && AclInput(req.contentType, req.body).Err?)
    ensures var x := Handle(true, req, dir).value;
            && |x.calls| == 1 && x.calls[0].Change?
            && (dir.changed.Pass? ==> x.reply == Reply(204, map[], []))
            && (dir.changed.Fail? ==> x.reply == WebMethod(true, Err(dir.changed.error)))
  {
  }

  /** Each method and part makes the matching change. */
  lemma ChangeMatchesRequest(req: Request, dir: Directory)
    requires Parse(req.path).Some? && Allowed(HandlerOf(Parse(req.path).value), req.verb)
    ensures var a := Parse(req.path).value;
            var calls := Handle(true, req, dir).value.calls;
            && (req.verb.Put? && a.part.Entry? ==> calls == [Change(LookupOf(a), SetAclRole(a.part.access, a.part.role))])
            && (req.verb.Delete? && a.part.Entry? ==> calls == [Change(LookupOf(a), DropAclRole(a.part.access, a.part.role))])
            && (req.verb.Delete? && a.part.Category? ==> calls == [Change(LookupOf(a), ClearAcl(a.part.access))])
  {
  }

  /** A read the directory cannot serve is answered as the wrapper translates the failure. */
  lemma ReadFailureTranslated(req: Request, dir: Directory)
    requires Parse(req.path).Some? && (req.verb.Get? || req.verb.Head?)
    requires dir.fetched.Err?
    ensures Handle(true, req, dir).value.reply == WebMethod(true, Err(dir.fetched.error))
  {
  }

  /** A read answers with the range error `get_content` raises, whatever the
      content read gives; otherwise with its reply for the content, or with
      the translated failure when reading the content fails. */
  lemma ReadReplies(req: Request, dir: Directory)
    requires Parse(req.path).Some? && (req.verb.Get? || req.verb.Head?)
    requires dir.fetched.Ok?
    ensures var s := dir.fetched.value;
            var o := RangeOutcomeOf(req.range, s.nbytes);
            var reply := Handle(true, req, dir).value.reply;
            && ((o.Unsatisfiable? || o.NotImpl?) ==> reply == ErrorReply(RangeError(o, s.what)))
            && (!(o.Unsatisfiable? || o.NotImpl?) && s.content.Err? ==> reply == WebMethod(true, Err(s.content.error)))
            && (!(o.Unsatisfiable? || o.NotImpl?) && s.content.Ok? ==>
                  reply == GetContent(req.range, s.nbytes, s.what, s.content.value, req.verb.Get?).value)
  {
    var a := Parse(req.path).value;
    var s := dir.fetched.value;
    assert Handle(true, req, dir).value.reply
        == WebMethod(true, ServeContent(req.range, s.nbytes, s.what, s.content, req.verb.Get?)) by {
      assert Serve(a, req, dir).run == ServeContent(req.range, s.nbytes, s.what, s.content, req.verb.Get?);
    }
  }

  /** `HEAD` makes the same call as `GET` and gets the same reply without its body. */
  lemma HeadIsGetWithoutBody(req: Request, dir: Directory)
    requires Parse(req.path).Some? && req.verb.Get?
    ensures var get := Handle(true, req, dir).value;
            var head := Handle(true, req.(verb := Head), dir).value;
            && head.calls == get.calls
            && (get.reply.status == 200 || get.reply.status == 206 ==> head.reply == get.reply.(body := []))
            && (get.reply.status != 200 && get.reply.status != 206 ==> head.reply == get.reply)
  {
    if dir.fetched.Ok? {
      var s := dir.fetched.value;
      if s.content.Ok? {
        HeadMatchesGet(req.range, s.nbytes, s.what, s.content.value);
      }
      ReadReplies(req, dir);
      ReadReplies(req.(verb := Head), dir);
    } else {
      ReadFailureTranslated(req, dir);
      ReadFailureTranslated(req.(verb := Head), dir);
    }
  }
}

=== FILE: addresses.dfy ===
/** The ACL addresses of the service: the nine anchored URL patterns of the
    `ACLEntry`, `ACL` and `ACLs` handlers, read as one grammar. An address
    names a target (the root, `path/name`, or `path/name:version`) and a part
    of its ACLs (all of them, one access category, or one entry); `Render`
    writes an address, `Parse` reads one back, and `PatternOf` says which of
    the nine patterns the text matches. */
module Addresses {
  import opened Wrappers
  import opened Strings
  import opened Names

  /** The character class `[^/:;]+` every captured piece is made of. */
  predicate IsSegment(s: string)
  {
    |s| > 0 && '/' !in s && ':' !in s && ';' !in s
  }

  /** The resource whose ACLs are addressed. */
  datatype Target =
    | Root                                                        // `/;acl...`
    | Unversioned(path: seq<string>, name: string)                // `/a/b/name;acl...`
    | Versioned(path: seq<string>, name: string, version: string) // `/a/b/name:v;acl...`

  /** The part of the ACLs addressed; `slash` records the optional trailing `/`. */
  datatype AclPart =
    | WholeSet(slash: bool)                // `;acl` or `;acl/`
    | Category(access: string, slash: bool) // `;acl/x` or `;acl/x/`
    | Entry(access: string, role: string)   // `;acl/x/r`

  datatype Address = Address(target: Target, part: AclPart)

  predicate AllSegments(p: seq<string>)
  {
    forall i :: 0 <= i < |p| ==> IsSegment(p[i])
  }

  predicate ValidTarget(t: Target)
  {
    match t
    case Root => true
    case Unversioned(p, n) => AllSegments(p) && IsSegment(n)
    case Versioned(p, n, v) => AllSegments(p) && IsSegment(n) && IsSegment(v)
  }

  predicate ValidPart(p: AclPart)
  {
    match p
    case WholeSet(_) => true
    case Category(x, _) => IsSegment(x)
    case Entry(x, r) => IsSegment(x) && IsSegment(r)
  }

  predicate Valid(a: Address)
  {
    ValidTarget(a.target) && ValidPart(a.part)
  }

  /* ----- writing ----- */

  /** The text the group `((?:[^/:;]+/)*)` captures: every segment followed by a slash. */
  function PathText(p: seq<string>): string
  {
    if |p| == 0 then "" else p[0] + "/" + PathText(p[1..])
  }

  /** The last path piece: the name, with its version after a colon. */
  function LeafText(t: Target): string
    requires !t.Root?
  {
    match t
    case Unversioned(_, n) => n
    case Versioned(_, n, v) => n + ":" + v
  }

  function TargetText(t: Target): string
  {
    if t.Root? then "" else PathText(t.path) + LeafText(t)
  }

  function PartText(p: AclPart): string
  {
    match p
    case WholeSet(slash) => if slash then "/" else ""
    case Category(x, slash) => "/" + x + (if slash then "/" else "")
    case Entry(x, r) => "/" + x + "/" + r
  }

  /** The request path of an address: a valid address reads back from it. */
  function Render(a: Address): (s: string)
    ensures Valid(a) ==> Parse(s) == Some(a)
  {
    var tt, pt := TargetText(a.target), PartText(a.part);
    assert Valid(a) ==> Parse("/" + tt + ";acl" + pt) == Some(a) by {
      if Valid(a) {
        ParseTargetText(a.target);
        ParseTailText(a.part);
        RenderedPieces(tt, pt);
        SplitTwo(tt, "acl" + pt, ';');
      }
    }
    "/" + tt + ";acl" + pt
  }

  /* ----- reading ----- */

  /** The target before `;acl`: empty for the root, otherwise slash-separated
      segments whose last one may carry `:version`. */
  function ParseTarget(t: string): (r: Option<Target>)
    ensures r.Some? ==> ValidTarget(r.value)
  {
    if t == "" then Some(Root)
    else
      var parts := Split(t, '/');
      var path, leaf := parts[..|parts| - 1], parts[|parts| - 1];
      if !AllSegments(path) then None
      else
        var halves := Split(leaf, ':');
        if |halves| == 1 && IsSegment(leaf) then Some(Unversioned(path, leaf))
        else if |halves| == 2 && IsSegment(halves[0]) && IsSegment(halves[1]) then Some(Versioned(path, halves[0], halves[1]))
        else None
  }

  /** What follows `;acl`: nothing or `/`, `/access` with an optional `/`, or `/access/role`. */
  function ParseAclTail(rest: string): (r: Option<AclPart>)
    ensures r.Some? ==> ValidPart(r.value)
  {
    if rest == "" then Some(WholeSet(false))
    else if rest == "/" then Some(WholeSet(true))
    else if rest[0] != '/' then None
    else
      var pieces := Split(rest[1..], '/');
      if |pieces| == 1 && IsSegment(pieces[0]) then Some(Category(pieces[0], false))
      else if |pieces| == 2 && IsSegment(pieces[0]) && pieces[1] == "" then Some(Category(pieces[0], true))
      else if |pieces| == 2 && IsSegment(pieces[0]) && IsSegment(pieces[1]) then Some(Entry(pieces[0], pieces[1]))
      else None
  }

  /** Matching a request path against the nine patterns: the address it
      spells, or `None` when no pattern matches. */
  function Parse(s: string): (r: Option<Address>)
    ensures r.Some? ==> Valid(r.value)
  {
    if |s| == 0 || s[0] != '/' then None
    else
      var pieces := Split(s[1..], ';');
      if |pieces| != 2 then None
      else
        var tail := pieces[1];
        if |tail| < 3 || tail[..3] != "acl" then None
        else
          match ParseTarget(pieces[0])
          case None => None
          case Some(t) =>
            match ParseAclTail(tail[3..])
            case None => None
            case Some(p) => Some(Address(t, p))
  }

  /* ----- patterns, handlers, captures ----- */

  /** The position of the matching pattern in the source: 0-2 for entries,
      3-5 for categories, 6-8 for whole sets, each as versioned, unversioned, root. */
  function PatternOf(a: Address): (k: nat)
    ensures k < 9
    ensures (k < 3 <==> a.part.Entry?) && (6 <= k <==> a.part.WholeSet?)
    ensures k % 3 == 0 <==> a.target.Versioned?
    ensures k % 3 == 2 <==> a.target.Root?
  {
    var row := match a.part
      case Entry(_, _) => 0
      case Category(_, _) => 3
      case WholeSet(_) => 6;
    var column := match a.target
      case Versioned(_, _, _) => 0
      case Unversioned(_, _) => 1
      case Root => 2;
    row + column
  }

  /** The handler class a pattern belongs to. */
  datatype Handler = AclEntryHandler | AclHandler | AclsHandler

  function HandlerOf(a: Address): (h: Handler)
    ensures h == AclEntryHandler <==> PatternOf(a) < 3
    ensures h == AclHandler <==> 3 <= PatternOf(a) < 6
    ensures h == AclsHandler <==> 6 <= PatternOf(a)
  {
    match a.part
    case Entry(_, _) => AclEntryHandler
    case Category(_, _) => AclHandler
    case WholeSet(_) => AclsHandler
  }

  /** The groups a pattern captures: path (with its trailing slash), name,
      version (empty when absent), and the access and role where present. */
  datatype Captures = Captures(path: string, name: string, version: string, access: Option<string>, role: Option<string>)

  function CapturesOf(a: Address): (c: Captures)
    ensures a.target.Versioned? ==> c.version == a.target.version
    ensures !a.target.Versioned? ==> c.version == ""
    ensures a.target.Root? ==> c.path == "" && c.name == ""
    ensures c.access.Some? <==> !a.part.WholeSet?
    ensures c.role.Some? <==> a.part.Entry?
  {
    var (path, name, version) := match a.target
      case Root => ("", "", "")
      case Unversioned(p, n) => (PathText(p), n, "")
      case Versioned(p, n, v) => (PathText(p), n, v);
    var (access, role) := match a.part
      case WholeSet(_) => (None, None)
      case Category(x, _) => (Some(x), None)
      case Entry(x, r) => (Some(x), Some(r));
    Captures(path, name, version, access, role)
  }

  /** The directory lookup a handler makes from its captures: unversioned
      and root addresses resolve by name, versioned ones (with a non-empty
      version, as every parsed one has) resolve their version. */
  function LookupOf(a: Address): (l: Lookup)
    ensures l.ByVersion? <==> a.target.Versioned? && a.target.version != ""
    ensures l.ByVersion? ==> l.version == a.target.version
  {
    var c := CapturesOf(a);
    ResolveNameOrVersion(c.path, c.name, c.version)
  }

  /* ----- lemmas about the pieces ----- */

  lemma {:induction false} PathTextExcludes(p: seq<string>, c: char)
    requires AllSegments(p) && c != '/'
    requires forall i :: 0 <= i < |p| ==> c !in p[i]
    ensures c !in PathText(p)
    decreases |p|
  {
    if |p| > 0 {
      PathTextExcludes(p[1..], c);
      assert c !in p[0];
    }
  }

  /** The path text and a leaf split at slashes into the segments and the leaf. */
  lemma {:induction false} SplitPathText(p: seq<string>, leaf: string)
    requires AllSegments(p) && '/' !in leaf
    ensures Split(PathText(p) + leaf, '/') == p + [leaf]
    decreases |p|
  {
    if |p| == 0 {
      assert PathText(p) + leaf == leaf;
      SplitWithout(leaf, '/');
    } else {
      var rest := PathText(p[1..]) + leaf;
      SplitPathText(p[1..], leaf);
      assert PathText(p) + leaf == p[0] + ['/'] + rest;
      SplitConcat(p[0], rest, '/');
      SplitWithout(p[0], '/');
      ConcatCons(p[0], p[1..], [leaf]);
    }
  }

  lemma ConcatCons<T>(x: T, a: seq<T>, b: seq<T>)
    ensures [x] + (a + b) == ([x] + a) + b
  {
  }

  /** A name and a version split at the colon into the two. */
  lemma SplitLeaf(n: string, v: string)
    requires IsSegment(n) && IsSegment(v)
    ensures Split(n + ":" + v, ':') == [n, v]
  {
    assert n + ":" + v == n + [':'] + v;
    SplitTwo(n, v, ':');
  }

  /** A valid target's text holds no `;` and reads back as the target. */
  lemma ParseTargetText(t: Target)
    requires ValidTarget(t)
    ensures ';' !in TargetText(t)
    ensures ParseTarget(TargetText(t)) == Some(t)
  {
    if !t.Root? {
      var p, leaf := t.path, LeafText(t);
      PathTextExcludes(p, ';');
      PathTextExcludes(p, ':');
      assert '/' !in leaf;
      SplitPathText(p, leaf);
      var parts := p + [leaf];
      assert parts[..|parts| - 1] == p && parts[|parts| - 1] == leaf;
      match t
      case Unversioned(_, n) =>
        SplitWithout(n, ':');
      case Versioned(_, n, v) =>
        SplitLeaf(n, v);
      assert TargetText(t) != "" by {
        assert |TargetText(t)| >= |leaf| > 0;
      }
    }
  }

  /** The text after `;acl` reads back as the part. */
  lemma ParseTailText(p: AclPart)
    requires ValidPart(p)
    ensures ';' !in PartText(p)
    ensures ParseAclTail(PartText(p)) == Some(p)
  {
    match p
    case WholeSet(_) =>
    case Category(x, slash) =>
      var rest := PartText(p);
      ConsFacts('/', x + (if slash then "/" else ""));
      if slash {
        assert rest[1..] == x + ['/'] + "";
        SplitTwo(x, "", '/');
      } else {
        assert rest[1..] == x;
        SplitWithout(x, '/');
      }
    case Entry(x, r) =>
      var rest := PartText(p);
      assert rest[1..] == x + ['/'] + r;
      SplitTwo(x, r, '/');
  }

  /* ----- round trip, soundness, exclusivity ----- */

  /** The pieces of a rendered path: the leading slash, then the target text
      and the ACL tail around the one `;`. */
  lemma RenderedPieces(tt: string, pt: string)
    ensures var s := "/" + tt + ";acl" + pt;
            && |s| > 0 && s[0] == '/'
            && s[1..] == tt + [';'] + ("acl" + pt)
            && |"acl" + pt| >= 3 && ("acl" + pt)[..3] == "acl" && ("acl" + pt)[3..] == pt
  {
    var s := "/" + tt + ";acl" + pt;
    assert s == ['/'] + (tt + [';'] + ("acl" + pt));
  }

  /** A path the parser splits into a target text and a tail starting `acl` is rebuilt from them. */
  lemma PiecesRendered(s: string, tt: string, tail: string)
    requires |s| > 0 && s[0] == '/' && s[1..] == tt + [';'] + tail
    requires |tail| >= 3 && tail[..3] == "acl"
    ensures s == "/" + tt + ";acl" + tail[3..]
  {
    assert tail == "acl" + tail[3..];
    assert s == [s[0]] + s[1..];
  }

  /** A path text with a leaf is the segments joined by slashes. */
  lemma {:induction false} JoinIsPathText(p: seq<string>, leaf: string)
    ensures Join(p + [leaf], '/') == PathText(p) + leaf
    decreases |p|
  {
    if |p| == 0 {
      assert p + [leaf] == [leaf];
    } else {
      JoinIsPathText(p[1..], leaf);
      assert (p + [leaf])[1..] == p[1..] + [leaf];
      assert (p + [leaf])[0] == p[0];
    }
  }

  /** Everything the target reader accepts is the text of what it returns. */
  lemma ParseTargetSound(t: string)
    requires ParseTarget(t).Some?
    ensures TargetText(ParseTarget(t).value) == t
  {
    if t != "" {
      var parts := Split(t, '/');
      var path, leaf := parts[..|parts| - 1], parts[|parts| - 1];
      JoinSplit(t, '/');
      assert parts == path + [leaf];
      JoinIsPathText(path, leaf);
      var halves := Split(leaf, ':');
      JoinSplit(leaf, ':');
      if |halves| == 2 {
        assert leaf == halves[0] + [':'] + halves[1];
      }
    }
  }

  /** Everything the tail reader accepts is the text of what it returns. */
  lemma ParseAclTailSound(rest: string)
    requires ParseAclTail(rest).Some?
    ensures PartText(ParseAclTail(rest).value) == rest
  {
    if rest != "" && rest != "/" {
      var pieces := Split(rest[1..], '/');
      JoinSplit(rest[1..], '/');
      assert rest == "/" + rest[1..];
      if |pieces| == 2 {
        assert rest[1..] == pieces[0] + "/" + pieces[1];
      }
    }
  }

  /** Every text the parser accepts is the rendering of the address it returns. */
  lemma ParseSound(s: string)
    requires Parse(s).Some?
    ensures Render(Parse(s).value) == s
  {
    var a := Parse(s).value;
    var pieces := Split(s[1..], ';');
    var tt, tail := pieces[0], pieces[1];
    assert ParseTarget(tt) == Some(a.target) && ParseAclTail(tail[3..]) == Some(a.part);
    SplitIntoTwo(s[1..], ';');
    ParseTargetSound(tt);
    ParseAclTailSound(tail[3..]);
    PiecesRendered(s, tt, tail);
  }

  /** The parser accepts exactly the renderings of valid addresses. */
  lemma ParseIffRender(s: string, a: Address)
    ensures Parse(s) == Some(a) <==> Valid(a) && Render(a) == s
  {
    if Parse(s) == Some(a) {
      ParseSound(s);
    }
    if Valid(a) && Render(a) == s {
    }
  }

  /** Distinct valid addresses have distinct texts: the split into path, name,
      version, access and role is unique. */
  lemma RenderInjective(a: Address, b: Address)
    requires Valid(a) && Valid(b)
    requires Render(a) == Render(b)
    ensures a == b
  {
  }

  /** A request path matches pattern `k`. */
  ghost predicate MatchesPattern(k: nat, s: string)
  {
    exists a :: Valid(a) && Render(a) == s && PatternOf(a) == k
  }

  /** No request path matches two of the nine patterns. */
  lemma PatternsExclusive(k1: nat, k2: nat, s: string)
    requires MatchesPattern(k1, s) && MatchesPattern(k2, s)
    ensures k1 == k2
  {
    var a :| Valid(a) && Render(a) == s && PatternOf(a) == k1;
    var b :| Valid(b) && Render(b) == s && PatternOf(b) == k2;
    RenderInjective(a, b);
  }

  /** A request path matches some pattern exactly when the parser accepts it, and then the one it reports. */
  lemma ParseFindsPattern(s: string)
    ensures Parse(s).Some? ==> MatchesPattern(PatternOf(Parse(s).value), s)
    ensures Parse(s).None? ==> forall k :: !MatchesPattern(k, s)
  {
    if Parse(s).Some? {
      ParseSound(s);
    } else {
      assert forall a :: Valid(a) ==> Render(a) != s;
    }
  }

  /* ----- trailing slashes ----- */

  /** `/access/role/` is no ACL tail. */
  lemma EntryTailRejectsSlash(x: string, r: string)
    requires IsSegment(x) && IsSegment(r)
    ensures ParseAclTail("/" + x + "/" + r + "/") == None
  {
    var rest := "/" + x + "/" + r + "/";
    assert rest[1..] == x + ['/'] + (r + ['/'] + "");
    SplitConcat(x, r + ['/'] + "", '/');
    SplitConcat(r, "", '/');
    SplitWithout(x, '/');
    SplitWithout(r, '/');
    SplitWithout("", '/');
    assert |Split(rest[1..], '/')| == 3;
  }

  /** An entry address with a trailing slash matches no pattern. */
  lemma EntryRejectsTrailingSlash(a: Address)
    requires Valid(a) && a.part.Entry?
    ensures Parse(Render(a) + "/") == None
  {
    var x, r := a.part.access, a.part.role;
    var tt := TargetText(a.target);
    var rest := "/" + x + "/" + r + "/";
    ParseTargetText(a.target);
    assert Render(a) + "/" == "/" + tt + ";acl" + rest;
    RenderedPieces(tt, rest);
    assert ';' !in rest;
    SplitTwo(tt, "acl" + rest, ';');
    EntryTailRejectsSlash(x, r);
  }

  /** The trailing slash of a category or whole-set address is optional: with
      or without it the same handler gets the same captures. */
  lemma TrailingSlashOptional(t: Target, part: AclPart)
    requires ValidTarget(t) && ValidPart(part) && !part.Entry?
    ensures var bare := Address(t, part.(slash := false));
            var slashed := Address(t, part.(slash := true));
            && Parse(Render(bare)) == Some(bare)
            && Parse(Render(slashed)) == Some(slashed)
            && Render(slashed) == Render(bare) + "/"
            && HandlerOf(bare) == HandlerOf(slashed)
            && CapturesOf(bare) == CapturesOf(slashed)
  {
  }

  /* ----- what the captures resolve to ----- */

  /** The root forms resolve to the root name `/`. */
  lemma RootResolvesToSlash(part: AclPart)
    ensures LookupOf(Address(Root, part)) == ByName("/")
  {
    FullnameOfNothing();
  }

  /** A target's canonical name is its segments joined under a leading slash. */
  lemma TargetFullname(a: Address)
    requires Valid(a) && !a.target.Root?
    ensures LookupOf(a).fullname == "/" + Join(a.target.path + [a.target.name], '/')
  {
    var p, n := a.target.path, a.target.name;
    JoinIsPathText(p, n);
    var segs := p + [n];
    assert forall i :: 0 <= i < |segs| ==> segs[i] != "" && '/' !in segs[i];
    JoinedSegmentsRead(segs);
  }
}

=== FILE: names.dfy ===
/** The request helpers of `RestHandler` that turn captured address pieces and
    request headers into canonical values: the full resource name, the input
    media type, and the choice between a name and a version lookup. */
module Names {
  import opened Wrappers
  import opened Strings

  /* ----- canonical names ----- */

  /** The non-empty pieces, in order. */
  function NonEmpty(parts: seq<string>): (r: seq<string>)
    ensures |r| <= |parts|
    ensures forall i :: 0 <= i < |r| ==> r[i] != "" && r[i] in parts
    decreases |parts|
  {
    if |parts| == 0 then []
    else (if parts[0] == "" then [] else [parts[0]]) + NonEmpty(parts[1..])
  }

  lemma {:induction false} NonEmptyConcat(a: seq<string>, b: seq<string>)
    ensures NonEmpty(a + b) == NonEmpty(a) + NonEmpty(b)
    decreases |a|
  {
    if |a| > 0 {
      var head := if a[0] == "" then [] else [a[0]];
      assert (a + b)[0] == a[0];
      assert (a + b)[1..] == a[1..] + b;
      NonEmptyConcat(a[1..], b);
      calc {
        NonEmpty(a + b);
        head + NonEmpty(a[1..] + b);
        head + (NonEmpty(a[1..]) + NonEmpty(b));
        (head + NonEmpty(a[1..])) + NonEmpty(b);
        NonEmpty(a) + NonEmpty(b);
      }
    } else {
      assert a + b == b;
    }
  }

  lemma {:induction false} NonEmptyKeepsNonEmpty(a: seq<string>)
    requires forall i :: 0 <= i < |a| ==> a[i] != ""
    ensures NonEmpty(a) == a
    decreases |a|
  {
    if |a| > 0 {
      NonEmptyKeepsNonEmpty(a[1..]);
      assert [a[0]] + a[1..] == a;
    }
  }

  /** The name segments of a slash-separated text: what lies between slashes, empty pieces dropped. */
  function Segments(s: string): (segs: seq<string>)
    ensures forall i :: 0 <= i < |segs| ==> segs[i] != "" && '/' !in segs[i]
  {
    var parts := Split(s, '/');
    var segs := NonEmpty(parts);
    assert forall i :: 0 <= i < |segs| ==> segs[i] in parts;
    segs
  }

  /** A slash separates the segments on its two sides and adds none. */
  lemma SegmentsAroundSlash(a: string, b: string)
    ensures Segments(a + "/" + b) == Segments(a) + Segments(b)
  {
    SplitConcat(a, b, '/');
    NonEmptyConcat(Split(a, '/'), Split(b, '/'));
  }

  /** `_fullname(path, name)`: a slash followed by the non-empty segments of
      `path + name` joined by single slashes. (`None` and `""` behave alike
      there, so both are `""` here.) */
  function Fullname(path: string, name: string): (r: string)
    ensures |r| > 0 && r[0] == '/'
    ensures r == "/" <==> Segments(path + name) == []
    ensures r != "/" ==> Split(r[1..], '/') == Segments(path + name)
    ensures forall i :: 0 <= i < |Split(r[1..], '/')| ==> r == "/" || Split(r[1..], '/')[i] != ""
    ensures Segments(r) == Segments(path + name)
  {
    var segs := Segments(path + name);
    JoinedSegments(segs);
    "/" + Join(segs, '/')
  }

  /** The facts behind `Fullname`: a slash and the joined segments read back as those segments. */
  lemma JoinedSegments(segs: seq<string>)
    requires forall i :: 0 <= i < |segs| ==> segs[i] != "" && '/' !in segs[i]
    ensures var r := "/" + Join(segs, '/');
            && (r == "/" <==> segs == [])
            && r[1..] == Join(segs, '/')
            && (r != "/" ==> Split(r[1..], '/') == segs)
            && Segments(r) == segs
  {
    var j := Join(segs, '/');
    JoinedSegmentsRead(segs);
    SegmentsAfterSlash(j);
    ConsFacts('/', j);
  }

  lemma ConsFacts<T>(x: T, a: seq<T>)
    ensures ([x] + a)[1..] == a
    ensures [x] + a == [x] <==> a == []
  {
    assert ([x] + a)[1..] == a;
  }

  /** Joined segments split back into themselves, and are empty only when there are none. */
  lemma JoinedSegmentsRead(segs: seq<string>)
    requires forall i :: 0 <= i < |segs| ==> segs[i] != "" && '/' !in segs[i]
    ensures Join(segs, '/') == "" <==> segs == []
    ensures segs != [] ==> Split(Join(segs, '/'), '/') == segs
    ensures Segments(Join(segs, '/')) == segs
  {
    if segs == [] {
      SegmentsOfEmpty();
    } else {
      SplitJoin(segs, '/');
      NonEmptyKeepsNonEmpty(segs);
      assert Split("", '/') == [""];
    }
  }

  /** Canonicalising a canonical name changes nothing. */
  lemma FullnameIdempotent(path: string, name: string)
    ensures Fullname(Fullname(path, name), "") == Fullname(path, name)
    ensures Fullname("", Fullname(path, name)) == Fullname(path, name)
  {
    var r := Fullname(path, name);
    assert r + "" == r;
    assert "" + r == r;
  }

  /** Texts with the same segments have the same canonical name. */
  lemma SameSegmentsSameFullname(x: string, y: string)
    requires Segments(x) == Segments(y)
    ensures Fullname(x, "") == Fullname(y, "")
  {
    assert x + "" == x;
    assert y + "" == y;
  }

  /** A slash at the front adds no segment. */
  lemma SegmentsAfterSlash(b: string)
    ensures Segments("/" + b) == Segments(b)
  {
    SegmentsAroundSlash("", b);
    assert "" + "/" + b == "/" + b;
    SegmentsOfEmpty();
  }

  /** The empty text has no segments. */
  lemma SegmentsOfEmpty()
    ensures Segments("") == []
  {
    assert Split("", '/') == [""];
    assert [""][1..] == [];
    assert NonEmpty([""]) == [] + NonEmpty([]);
  }

  /** A doubled slash does not change the canonical name. */
  lemma FullnameIgnoresDoubledSlash(a: string, b: string)
    ensures Fullname(a + "//" + b, "") == Fullname(a + "/" + b, "")
  {
    SegmentsAroundSlash(a, "/" + b);
    assert a + "/" + ("/" + b) == a + "//" + b;
    SegmentsAfterSlash(b);
    SegmentsAroundSlash(a, b);
    SameSegmentsSameFullname(a + "//" + b, a + "/" + b);
  }

  /** A leading slash does not change the canonical name. */
  lemma FullnameIgnoresLeadingSlash(a: string)
    ensures Fullname("/" + a, "") == Fullname(a, "")
  {
    SegmentsAfterSlash(a);
    SameSegmentsSameFullname("/" + a, a);
  }

  /** A trailing slash does not change the canonical name. */
  lemma FullnameIgnoresTrailingSlash(a: string)
    ensures Fullname(a + "/", "") == Fullname(a, "")
  {
    SegmentsAroundSlash(a, "");
    assert a + "/" + "" == a + "/";
    SegmentsOfEmpty();
    assert Segments(a) + [] == Segments(a);
    SameSegmentsSameFullname(a + "/", a);
  }

  /** With nothing to name, the canonical name is the root. */
  lemma FullnameOfNothing()
    ensures Fullname("", "") == "/"
  {
    SegmentsOfEmpty();
  }

  /* ----- request media type ----- */

  /** `in_content_type()`: the request's media type, lower-cased, without
      parameters and surrounding whitespace; absent when the header is absent. */
  function InContentType(header: Option<string>): (r: Option<string>)
    ensures r.None? <==> header.None?
    ensures r.Some? ==> ';' !in r.value
    ensures r.Some? ==> Stripped(r.value)
    ensures r.Some? ==> forall i :: 0 <= i < |r.value| ==> !IsUpper(r.value[i])
    ensures header.Some? && ';' !in header.value && Stripped(header.value) ==> r == Some(Lower(header.value))
  {
    match header
    case None => None
    case Some(h) =>
      MediaTypeShape(h);
      var t := Strip(Split(Lower(h), ';')[0]);
      assert ';' !in h && Stripped(h) ==> t == Lower(h) by {
        if ';' !in h && Stripped(h) {
          BareMediaType(h);
        }
      }
      Some(t)
  }

  /** A header without parameters or padding is only lower-cased. */
  lemma BareMediaType(h: string)
    requires ';' !in h && Stripped(h)
    ensures Strip(Split(Lower(h), ';')[0]) == Lower(h)
  {
    LowerExcludes(h, ';');
    SplitWithout(Lower(h), ';');
    LowerStripped(h);
  }

  /** What is left of a header after lower-casing, cutting at the first `;`
      and stripping: no `;`, no surrounding whitespace, no upper case. */
  lemma MediaTypeShape(h: string)
    ensures var t := Strip(Split(Lower(h), ';')[0]);
            && ';' !in t && Stripped(t) && forall i :: 0 <= i < |t| ==> !IsUpper(t[i])
  {
    var lowered := Lower(h);
    var first := Split(lowered, ';')[0];
    var t := Strip(first);
    assert forall c :: c in first ==> !IsUpper(c) by {
      assert forall c :: c in lowered ==> !IsUpper(c);
      FirstPieceIsPrefix(lowered, ';');
      assert forall c :: c in first ==> c in lowered;
    }
    assert forall c :: c in t ==> c in first && c != ';';
    assert forall i :: 0 <= i < |t| ==> !IsUpper(t[i]) by {
      assert forall i :: 0 <= i < |t| ==> t[i] in t;
    }
  }

  /** The first piece of a split is a prefix of the text. */
  lemma {:induction false} FirstPieceIsPrefix(s: string, d: char)
    ensures |Split(s, d)[0]| <= |s| && Split(s, d)[0] == s[..|Split(s, d)[0]|]
    decreases |s|
  {
    if |s| > 0 {
      FirstPieceIsPrefix(s[1..], d);
    }
  }

  /** Media-type parameters after the first `;` never matter. */
  lemma InContentTypeIgnoresParameters(t: string, params: string)
    ensures InContentType(Some(t + ";" + params)) == InContentType(Some(t))
  {
    LowerConcat(t, ";" + params);
    LowerConcat(";", params);
    assert Lower(";") == ";";
    assert Lower(t + ";" + params) == Lower(t) + [';'] + Lower(params) by {
      assert t + ";" + params == t + (";" + params);
    }
    SplitConcat(Lower(t), Lower(params), ';');
  }

  /** The case of the header does not matter. */
  lemma InContentTypeIgnoresCase(h: string)
    ensures InContentType(Some(Lower(h))) == InContentType(Some(h))
  {
    LowerFixed(Lower(h));
  }

  /** Whitespace around a header without parameters does not matter. */
  lemma {:induction false} PaddingWithoutParameters(w1: string, t: string, w2: string)
    requires AllSpace(w1) && AllSpace(w2) && ';' !in t
    ensures InContentType(Some(w1 + t + w2)) == InContentType(Some(t))
  {
    var lt := Lower(t);
    LowerConcat(w1 + t, w2);
    LowerConcat(w1, t);
    LowerBlank(w1);
    LowerBlank(w2);
    LowerExcludes(t, ';');
    assert ';' !in w1 + lt + w2 by {
      assert forall i :: 0 <= i < |w1| ==> IsSpace(w1[i]);
      assert forall i :: 0 <= i < |w2| ==> IsSpace(w2[i]);
    }
    SplitWithout(w1 + lt + w2, ';');
    SplitWithout(lt, ';');
    StripPadded(w1, lt, w2);
  }

  /** Whitespace around the header does not matter. */
  lemma {:induction false} InContentTypeIgnoresPadding(w1: string, t: string, w2: string)
    requires AllSpace(w1) && AllSpace(w2)
    ensures InContentType(Some(w1 + t + w2)) == InContentType(Some(t))
  {
    match SplitOnce(t, ';')
    case None =>
      PaddingWithoutParameters(w1, t, w2);
    case Some((a, b)) =>
      assert w1 + t + w2 == (w1 + a) + ";" + (b + w2);
      assert t == a + ";" + b;
      InContentTypeIgnoresParameters(w1 + a, b + w2);
      InContentTypeIgnoresParameters(a, b);
      PaddingWithoutParameters(w1, a, "");
      assert w1 + a + "" == w1 + a;
  }

  /** Normalising a normalised media type changes nothing. */
  lemma InContentTypeIdempotent(h: string)
    ensures InContentType(Some(InContentType(Some(h)).value)) == InContentType(Some(h))
  {
    var t := InContentType(Some(h)).value;
    LowerFixed(t);
    SplitWithout(t, ';');
  }

  /** A media type already in normal form is its own normal form. */
  lemma InContentTypeOfNormal(t: string)
    requires ';' !in t && Stripped(t)
    requires forall i :: 0 <= i < |t| ==> !IsUpper(t[i])
    ensures InContentType(Some(t)) == Some(t)
  {
    LowerFixed(t);
    SplitWithout(t, ';');
  }

  /* ----- name or version ----- */

  /** The directory lookup a handler asks for: the object or namespace by its
      full name, or one version of the object. */
  datatype Lookup = ByName(fullname: string) | ByVersion(fullname: string, version: string)

  /** `resolve_name_or_version`: a version lookup exactly when a non-empty
      version was captured, always under the canonical name. */
  function ResolveNameOrVersion(path: string, name: string, version: string): (l: Lookup)
    ensures l.fullname == Fullname(path, name)
    ensures l.ByVersion? <==> version != ""
    ensures l.ByVersion? ==> l.version == version
  {
    if version != "" then ByVersion(Fullname(path, name), version)
    else ByName(Fullname(path, name))
  }
}

=== FILE: range_specs.dfy ===
/** An independent statement of what the byte-range engine promises. A
    byte-range-spec of section 2.1 of RFC 7233 is a number pair, a header is a
    comma-separated list of their texts, and `Expected` says from the numbers
    alone which reply is due: the engine's string parsing and slice filtering
    are proved to agree with it. */
module RangeSpecs {
  import opened Wrappers
  import opened Strings
  import opened RestErrors
  import opened Ranges

  /** `-length`, `first-` or `first-last`, with the numbers read. */
  datatype ByteRangeSpec = SuffixSpec(length: nat) | OpenSpec(first: nat) | ClosedSpec(first: nat, last: nat)

  /** The specs the service takes as well-formed. It departs from section 2.1
      of RFC 7233 on a zero-length suffix, which it treats as a syntax error
      (the RFC calls it valid and unsatisfiable). */
  predicate Accepted(sp: ByteRangeSpec)
  {
    match sp
    case SuffixSpec(l) => l > 0
    case OpenSpec(_) => true
    case ClosedSpec(f, l) => f <= l
  }

  /** Whether a spec selects something, as the service decides it: its first
      byte lies inside the entity, or it is a non-zero suffix of a non-empty
      entity. Section 2.1 of RFC 7233 calls every non-zero suffix satisfiable,
      even against an empty entity; the service departs from it there and
      answers `bytes=-5` on an empty entity 416. */
  predicate Satisfiable(sp: ByteRangeSpec, nbytes: nat)
  {
    match sp
    case SuffixSpec(l) => l > 0 && nbytes > 0
    case OpenSpec(f) => f < nbytes
    case ClosedSpec(f, _) => f < nbytes
  }

  /** The first byte selected. */
  function FirstByte(sp: ByteRangeSpec, nbytes: nat): nat
  {
    match sp
    case SuffixSpec(l) => if l >= nbytes then 0 else nbytes - l
    case OpenSpec(f) => f
    case ClosedSpec(f, _) => f
  }

  /** One past the last byte selected; a last position at or past the end of
      the entity stands for the end. */
  function EndByte(sp: ByteRangeSpec, nbytes: nat): nat
  {
    match sp
    case ClosedSpec(_, l) => if l < nbytes then l + 1 else nbytes
    case _ => nbytes
  }

  /** The satisfiable specs, in order. */
  function SatisfiableSpecs(specs: seq<ByteRangeSpec>, nbytes: nat): seq<ByteRangeSpec>
    decreases |specs|
  {
    if |specs| == 0 then []
    else (if Satisfiable(specs[0], nbytes) then [specs[0]] else []) + SatisfiableSpecs(specs[1..], nbytes)
  }

  /** The reply due to a `bytes` header listing `specs` for an entity of
      `nbytes` bytes: a header the service cannot read is ignored; nothing
      satisfiable is 416; more than one satisfiable spec is 501; one spec is
      206 for its bytes, or 200 when it covers the entity exactly. */
  function Expected(specs: seq<ByteRangeSpec>, nbytes: nat): RangeOutcome
  {
    if exists i :: 0 <= i < |specs| && !Accepted(specs[i]) then Full
    else
      var sat := SatisfiableSpecs(specs, nbytes);
      if |sat| == 0 then Unsatisfiable(nbytes)
      else if |sat| > 1 then NotImpl(MultipleRanges)
      else if FirstByte(sat[0], nbytes) == 0 && EndByte(sat[0], nbytes) == nbytes then Full
      else Partial(FirstByte(sat[0], nbytes), EndByte(sat[0], nbytes))
  }

  /* ----- texts of specs ----- */

  /** `r` is a text of `sp`: its numbers in decimal digits (leading zeros and
      surrounding whitespace allowed) around one `-`. */
  predicate Denotes(r: string, sp: ByteRangeSpec)
  {
    match sp
    case SuffixSpec(l) => |r| >= 1 && r[0] == '-' && ParseNat(r[1..]) == Some(l)
    case OpenSpec(f) => |r| >= 2 && r[|r| - 1] == '-' && ParseNat(r[..|r| - 1]) == Some(f)
    case ClosedSpec(f, l) =>
      exists i :: 0 < i < |r| - 1 && r[i] == '-' && ParseNat(r[..i]) == Some(f) && ParseNat(r[i + 1..]) == Some(l)
  }

  /** The canonical text of a spec. */
  function Format(sp: ByteRangeSpec): (r: string)
    ensures Denotes(r, sp)
  {
    match sp
    case SuffixSpec(l) =>
      ParseNatToString(l);
      var r := "-" + NatToString(l);
      assert r[1..] == NatToString(l);
      r
    case OpenSpec(f) =>
      ParseNatToString(f);
      var r := NatToString(f) + "-";
      assert r[..|r| - 1] == NatToString(f);
      r
    case ClosedSpec(f, l) =>
      ParseNatToString(f);
      ParseNatToString(l);
      var r := NatToString(f) + "-" + NatToString(l);
      Around(NatToString(f), '-', NatToString(l));
      assert Denotes(r, sp) by {
        var i := |NatToString(f)|;
        assert 0 < i < |r| - 1 && r[i] == '-' && r[..i] == NatToString(f) && r[i + 1..] == NatToString(l);
      }
      r
  }

  /** A text of a spec is digits, whitespace and one dash, so it holds
      neither `,` nor `=`. */
  lemma DenotedAlphabet(r: string, sp: ByteRangeSpec)
    requires Denotes(r, sp)
    ensures ',' !in r && '=' !in r
  {
    match sp
    case SuffixSpec(_) =>
      ParsedAlphabet(r[1..]);
      assert r[..0] == "";
      DashedDigits(r, 0);
    case OpenSpec(_) =>
      ParsedAlphabet(r[..|r| - 1]);
      assert r[|r|..] == "";
      DashedDigits(r, |r| - 1);
    case ClosedSpec(f, l) =>
      var i :| 0 < i < |r| - 1 && r[i] == '-' && ParseNat(r[..i]) == Some(f) && ParseNat(r[i + 1..]) == Some(l);
      ParsedAlphabet(r[..i]);
      ParsedAlphabet(r[i + 1..]);
      DashedDigits(r, i);
  }

  /** Numerals on both sides of a dash. */
  lemma DashedDigits(r: string, i: nat)
    requires i < |r| && r[i] == '-'
    requires NumeralChars(r[..i]) && NumeralChars(r[i + 1..])
    ensures ',' !in r && '=' !in r
  {
    forall k | 0 <= k < |r|
      ensures r[k] == '-' || IsDigit(r[k]) || IsSpace(r[k])
    {
      if k < i {
        assert r[k] == r[..i][k];
      } else if k > i {
        assert r[k] == r[i + 1..][k - i - 1];
      }
    }
  }

  /** The slice the engine builds for a spec agrees with the spec: it survives
      the filter exactly when the spec is satisfiable, and then clamps to the
      spec's bytes. */
  predicate Agrees(s: Slice, sp: ByteRangeSpec, nbytes: nat)
  {
    && (Intersects(s, nbytes) <==> Satisfiable(sp, nbytes))
    && (Satisfiable(sp, nbytes) ==> s.start == FirstByte(sp, nbytes) && Min(s.stop, nbytes) == EndByte(sp, nbytes))
  }

  /** The engine's parser fails on `r` exactly when the service rejects `sp`,
      and otherwise builds a slice that agrees with `sp`. */
  predicate ParsedAs(r: string, sp: ByteRangeSpec, nbytes: nat)
  {
    && (ParseSpec(r, nbytes).Some? <==> Accepted(sp))
    && (ParseSpec(r, nbytes).Some? ==> Agrees(ParseSpec(r, nbytes).value, sp, nbytes))
  }

  /** On a text of a spec the engine's parser fails exactly when the service
      rejects the spec, and otherwise builds a slice that agrees with it. */
  lemma ParseSpecOfDenoted(r: string, sp: ByteRangeSpec, nbytes: nat)
    requires Denotes(r, sp)
    ensures ParseSpec(r, nbytes).Some? <==> Accepted(sp)
    ensures ParseSpec(r, nbytes).Some? ==> Agrees(ParseSpec(r, nbytes).value, sp, nbytes)
  {
    match sp
    case SuffixSpec(l) =>
      SuffixParsed(r, l, nbytes);
    case OpenSpec(f) =>
      OpenParsed(r, f, nbytes);
    case ClosedSpec(f, l) =>
      var i :| 0 < i < |r| - 1 && r[i] == '-' && ParseNat(r[..i]) == Some(f) && ParseNat(r[i + 1..]) == Some(l);
      ClosedParsed(r, i, f, l, nbytes);
  }

  /** The suffix case of `ParseSpecOfDenoted`. */
  lemma SuffixParsed(r: string, l: nat, nbytes: nat)
    requires |r| >= 1 && r[0] == '-' && ParseNat(r[1..]) == Some(l)
    ensures ParsedAs(r, SuffixSpec(l), nbytes)
  {
    Rejoin(r, 0);
    assert r[..0] == "";
    SplitOnceAt("", r[1..], '-');
  }

  /** The open case of `ParseSpecOfDenoted`. */
  lemma OpenParsed(r: string, f: nat, nbytes: nat)
    requires |r| >= 2 && r[|r| - 1] == '-' && ParseNat(r[..|r| - 1]) == Some(f)
    ensures ParsedAs(r, OpenSpec(f), nbytes)
  {
    var a := r[..|r| - 1];
    Rejoin(r, |r| - 1);
    assert r[|r|..] == "";
    ParsedAlphabet(a);
    assert '-' !in a by {
      assert forall k :: 0 <= k < |a| ==> IsDigit(a[k]) || IsSpace(a[k]);
    }
    SplitOnceAt(a, "", '-');
  }

  /** The closed case of `ParseSpecOfDenoted`. */
  lemma ClosedParsed(r: string, i: nat, f: nat, l: nat, nbytes: nat)
    requires 0 < i < |r| - 1 && r[i] == '-' && ParseNat(r[..i]) == Some(f) && ParseNat(r[i + 1..]) == Some(l)
    ensures ParsedAs(r, ClosedSpec(f, l), nbytes)
  {
    var a, b := r[..i], r[i + 1..];
    Rejoin(r, i);
    ParsedAlphabet(a);
    assert '-' !in a by {
      assert forall k :: 0 <= k < |a| ==> IsDigit(a[k]) || IsSpace(a[k]);
    }
    ClosedPieces(a, b, f, l, nbytes);
  }

  /** `ClosedParsed` on the two numerals. */
  lemma ClosedPieces(a: string, b: string, f: nat, l: nat, nbytes: nat)
    requires a != "" && b != "" && '-' !in a
    requires ParseNat(a) == Some(f) && ParseNat(b) == Some(l)
    ensures ParsedAs(a + ['-'] + b, ClosedSpec(f, l), nbytes)
  {
    SplitOnceAt(a, b, '-');
  }

  /** Every text the engine's parser accepts is a text of an accepted spec. */
  lemma ParseSpecDenotes(r: string, nbytes: nat)
    ensures ParseSpec(r, nbytes).Some? ==> exists sp :: Denotes(r, sp) && Accepted(sp)
  {
    if ParseSpec(r, nbytes).Some? {
      var first, last := AcceptedPieces(r, nbytes);
      var sp := PiecesDenote(first, last);
    }
  }

  /** What the parser checked about the pieces either side of the first dash
      of a text it accepts. */
  lemma AcceptedPieces(r: string, nbytes: nat) returns (first: string, last: string)
    requires ParseSpec(r, nbytes).Some?
    ensures r == first + ['-'] + last
    ensures first == "" ==> ParseNat(last).Some? && ParseNat(last).value > 0
    ensures first != "" ==> ParseNat(first).Some?
    ensures first != "" && last != "" ==> ParseNat(last).Some? && ParseNat(first).value <= ParseNat(last).value
  {
    first, last := SplitOnce(r, '-').value.0, SplitOnce(r, '-').value.1;
  }

  /** Pieces the parser accepts around a dash make a text of an accepted spec. */
  lemma PiecesDenote(first: string, last: string) returns (sp: ByteRangeSpec)
    requires first == "" ==> ParseNat(last).Some? && ParseNat(last).value > 0
    requires first != "" ==> ParseNat(first).Some?
    requires first != "" && last != "" ==> ParseNat(last).Some? && ParseNat(first).value <= ParseNat(last).value
    ensures Denotes(first + ['-'] + last, sp) && Accepted(sp)
  {
    var r := first + ['-'] + last;
    Around(first, '-', last);
    if first == "" {
      sp := SuffixSpec(ParseNat(last).value);
      DashedDenotes(r, 0, sp);
    } else if last == "" {
      sp := OpenSpec(ParseNat(first).value);
      DashedDenotes(r, |first|, sp);
    } else {
      sp := ClosedSpec(ParseNat(first).value, ParseNat(last).value);
      DashedDenotes(r, |first|, sp);
    }
  }

  /** A text with a dash at `i` and the spec's numbers either side of it. */
  lemma DashedDenotes(r: string, i: nat, sp: ByteRangeSpec)
    requires i < |r| && r[i] == '-'
    requires sp.SuffixSpec? ==> i == 0 && ParseNat(r[1..]) == Some(sp.length)
    requires sp.OpenSpec? ==> i == |r| - 1 > 0 && ParseNat(r[..i]) == Some(sp.first)
    requires sp.ClosedSpec? ==> 0 < i < |r| - 1 && ParseNat(r[..i]) == Some(sp.first) && ParseNat(r[i + 1..]) == Some(sp.last)
    ensures Denotes(r, sp)
  {
  }

  /** The filter keeps, in order, the slices of the satisfiable specs. */
  lemma {:induction false} SurvivorsAgree(slices: seq<Slice>, specs: seq<ByteRangeSpec>, nbytes: nat)
    requires |slices| == |specs|
    requires forall i :: 0 <= i < |specs| ==> Agrees(slices[i], specs[i], nbytes)
    ensures |Surviving(slices, nbytes)| == |SatisfiableSpecs(specs, nbytes)|
    ensures forall j :: 0 <= j < |Surviving(slices, nbytes)| ==>
              Satisfiable(SatisfiableSpecs(specs, nbytes)[j], nbytes)
              && Agrees(Surviving(slices, nbytes)[j], SatisfiableSpecs(specs, nbytes)[j], nbytes)
    decreases |specs|
  {
    if |specs| > 0 {
      SurvivorsAgree(slices[1..], specs[1..], nbytes);
      assert Agrees(slices[0], specs[0], nbytes);
    }
  }

  /** The specs after the unit are decided as `Expected` says. */
  lemma DecideSpecsMatchesExpected(texts: seq<string>, specs: seq<ByteRangeSpec>, nbytes: nat)
    requires |texts| == |specs|
    requires forall i :: 0 <= i < |texts| ==> Denotes(texts[i], specs[i])
    ensures DecideSpecs(texts, nbytes) == Expected(specs, nbytes)
  {
    forall i | 0 <= i < |texts|
      ensures ParseSpec(texts[i], nbytes).Some? <==> Accepted(specs[i])
      ensures ParseSpec(texts[i], nbytes).Some? ==> Agrees(ParseSpec(texts[i], nbytes).value, specs[i], nbytes)
    {
      ParseSpecOfDenoted(texts[i], specs[i], nbytes);
    }
    ParseSpecsPointwise(texts, nbytes);
    match ParseSpecs(texts, nbytes)
    case None =>
      var k :| 0 <= k < |texts| && ParseSpec(texts[k], nbytes).None?;
      assert !Accepted(specs[k]);
    case Some(slices) =>
      assert forall i :: 0 <= i < |specs| ==> Agrees(slices[i], specs[i], nbytes) && Accepted(specs[i]);
      ChooseMatchesExpected(slices, specs, nbytes);
  }

  /** Slices that agree with accepted specs are chosen among as `Expected` says. */
  lemma ChooseMatchesExpected(slices: seq<Slice>, specs: seq<ByteRangeSpec>, nbytes: nat)
    requires |slices| == |specs|
    requires forall i :: 0 <= i < |slices| ==> Shaped(slices[i], nbytes)
    requires forall i :: 0 <= i < |specs| ==> Agrees(slices[i], specs[i], nbytes) && Accepted(specs[i])
    ensures ChooseSlice(slices, nbytes) == Expected(specs, nbytes)
  {
    SurvivorsAgree(slices, specs, nbytes);
    var kept, sat := Surviving(slices, nbytes), SatisfiableSpecs(specs, nbytes);
    if |kept| == 1 {
      assert Agrees(kept[0], sat[0], nbytes) && Satisfiable(sat[0], nbytes);
    }
  }

  /** The header `bytes=<texts>` for the texts of `specs`. */
  function RangeHeader(texts: seq<string>): string
  {
    BytesUnit + "=" + Join(texts, ',')
  }

  const BytesUnit: string := "bytes"

  /** A `bytes` header whose list holds no `=` or `,` inside its items is
      decided by its items. */
  lemma HeaderDecidesSpecs(texts: seq<string>, nbytes: nat)
    requires |texts| >= 1
    requires forall i :: 0 <= i < |texts| ==> ',' !in texts[i] && '=' !in texts[i]
    ensures DecideRange(RangeHeader(texts), nbytes) == DecideSpecs(texts, nbytes)
  {
    BytesHeaderParts(texts);
    BytesUnitPlain();
    SplitJoin(texts, ',');
  }

  /** The engine decides every readable `bytes` header exactly as `Expected` says. */
  lemma DecideMatchesExpected(texts: seq<string>, specs: seq<ByteRangeSpec>, nbytes: nat)
    requires |texts| == |specs| >= 1
    requires forall i :: 0 <= i < |texts| ==> Denotes(texts[i], specs[i])
    ensures DecideRange(RangeHeader(texts), nbytes) == Expected(specs, nbytes)
  {
    forall i | 0 <= i < |texts|
      ensures ',' !in texts[i] && '=' !in texts[i]
    {
      DenotedAlphabet(texts[i], specs[i]);
    }
    HeaderDecidesSpecs(texts, nbytes);
    DecideSpecsMatchesExpected(texts, specs, nbytes);
  }

  /** `bytes=<joined texts>` splits at its one `=` into the unit and the list. */
  lemma BytesHeaderParts(texts: seq<string>)
    requires forall i :: 0 <= i < |texts| ==> '=' !in texts[i]
    ensures Split(RangeHeader(texts), '=') == [BytesUnit, Join(texts, ',')]
  {
    var joined := Join(texts, ',');
    JoinExcludes(texts, ',', '=');
    BytesUnitPlain();
    SplitConcat(BytesUnit, joined, '=');
    SplitWithout(BytesUnit, '=');
    SplitWithout(joined, '=');
    assert RangeHeader(texts) == BytesUnit + ['='] + joined;
    PairConcat(BytesUnit, joined);
  }

  lemma PairConcat<T>(a: T, b: T)
    ensures [a] + [b] == [a, b]
  {
  }

  /** The unit name is lower-case and holds no `=`. */
  lemma BytesUnitPlain()
    ensures '=' !in BytesUnit
    ensures Lower(BytesUnit) == BytesUnit
  {
    assert forall i :: 0 <= i < |BytesUnit| ==> !IsUpper(BytesUnit[i]) && BytesUnit[i] != '=';
  }

  /** A text in the list that is no text of any spec (no dash, a bound that is
      not a number, ...) makes the engine ignore the whole header. */
  lemma UnreadableSpecIgnored(texts: seq<string>, k: nat, nbytes: nat)
    requires forall i :: 0 <= i < |texts| ==> ',' !in texts[i] && '=' !in texts[i]
    requires k < |texts|
    requires forall sp :: !Denotes(texts[k], sp)
    ensures DecideRange(RangeHeader(texts), nbytes) == Full
  {
    HeaderDecidesSpecs(texts, nbytes);
    ParseSpecDenotes(texts[k], nbytes);
    ParseSpecsPointwise(texts, nbytes);
  }

  /** The unit is matched without regard to case. */
  lemma UnitCaseInsensitive(units: string, rest: string, nbytes: nat)
    requires Lower(units) == BytesUnit
    ensures DecideRange(units + "=" + rest, nbytes) == DecideRange(BytesUnit + "=" + rest, nbytes)
  {
    BytesUnitPlain();
    assert forall i :: 0 <= i < |units| ==> LowerChar(units[i]) == BytesUnit[i];
    assert '=' !in units;
    SplitConcat(units, rest, '=');
    SplitConcat(BytesUnit, rest, '=');
    SplitWithout(units, '=');
    SplitWithout(BytesUnit, '=');
    assert units + "=" + rest == units + ['='] + rest;
    assert BytesUnit + "=" + rest == BytesUnit + ['='] + rest;
  }

  /** A header with exactly one `=` and any other unit is answered 501, before the specs are read. */
  lemma UnknownUnitNotImplemented(units: string, rest: string, nbytes: nat)
    requires '=' !in units && '=' !in rest
    requires Lower(units) != BytesUnit
    ensures DecideRange(units + "=" + rest, nbytes) == NotImpl(UnknownUnit(units))
  {
    SplitConcat(units, rest, '=');
    SplitWithout(units, '=');
    SplitWithout(rest, '=');
    assert units + "=" + rest == units + ['='] + rest;
  }

  /** A header without exactly one `=` is ignored. */
  lemma NotOneEqualsIgnored(header: string, nbytes: nat)
    requires multiset(header)['='] != 1
    ensures DecideRange(header, nbytes) == Full
  {
    SplitCount(header, '=');
  }

  /** Nothing is satisfiable in an empty entity. */
  lemma {:induction false} NothingSatisfiableWhenEmpty(specs: seq<ByteRangeSpec>)
    ensures SatisfiableSpecs(specs, 0) == []
    decreases |specs|
  {
    if |specs| > 0 {
      NothingSatisfiableWhenEmpty(specs[1..]);
    }
  }

  /** Against an empty entity every readable, accepted header is 416. */
  lemma EmptyEntityUnsatisfiable(texts: seq<string>, specs: seq<ByteRangeSpec>)
    requires |texts| == |specs| >= 1
    requires forall i :: 0 <= i < |texts| ==> Denotes(texts[i], specs[i]) && Accepted(specs[i])
    ensures DecideRange(RangeHeader(texts), 0) == Unsatisfiable(0)
  {
    DecideMatchesExpected(texts, specs, 0);
    NothingSatisfiableWhenEmpty(specs);
  }

  /** A suffix at least as long as a non-empty entity serves the whole entity (200). */
  lemma LongSuffixIsFull(length: nat, nbytes: nat)
    requires 0 < nbytes <= length
    ensures DecideRange(RangeHeader([Format(SuffixSpec(length))]), nbytes) == Full
  {
    DecideMatchesExpected([Format(SuffixSpec(length))], [SuffixSpec(length)], nbytes);
    ExpectedOne(SuffixSpec(length), nbytes);
  }

  /** Two specs that both select bytes are answered 501: ranges are not merged. */
  lemma TwoSatisfiableNotImplemented(a: ByteRangeSpec, b: ByteRangeSpec, nbytes: nat)
    requires Accepted(a) && Accepted(b)
    requires Satisfiable(a, nbytes) && Satisfiable(b, nbytes)
    ensures DecideRange(RangeHeader([Format(a), Format(b)]), nbytes) == NotImpl(MultipleRanges)
  {
    DecideMatchesExpected([Format(a), Format(b)], [a, b], nbytes);
    assert [a, b][1..] == [b];
    assert [b][1..] == [];
    assert SatisfiableSpecs([b], nbytes) == [b] + SatisfiableSpecs([], nbytes);
    assert SatisfiableSpecs([a, b], nbytes) == [a] + SatisfiableSpecs([b], nbytes);
  }

  /* ----- replies ----- */

  /** A closed range inside the entity, other than the whole entity, is served
      206 with its own bounds echoed in `Content-Range`. */
  lemma ClosedRangeReply(first: nat, last: nat, nbytes: nat, what: string, c: Content, getBody: bool)
    requires first <= last < nbytes
    requires !(first == 0 && last == nbytes - 1)
    ensures var r := GetContent(Some(RangeHeader([Format(ClosedSpec(first, last))])), Some(nbytes), what, c, getBody);
            && r.Ok?
            && r.value.status == 206
            && "Content-Range" in r.value.headers
            && r.value.headers["Content-Range"]
               == "bytes " + NatToString(first) + "-" + NatToString(last) + "/" + NatToString(nbytes)
  {
    var h := RangeHeader([Format(ClosedSpec(first, last))]);
    ClosedRangeDecision(first, last, nbytes);
    PartialReply(h, nbytes, first, last + 1, what, c, getBody);
  }

  /** A header decided as one partial slice is served 206 for that slice. */
  lemma PartialReply(h: string, nbytes: nat, start: nat, stop: nat, what: string, c: Content, getBody: bool)
    requires h != "" && start < stop
    requires DecideRange(h, nbytes) == Partial(start, stop)
    ensures var r := GetContent(Some(h), Some(nbytes), what, c, getBody);
            && r.Ok?
            && r.value.status == 206
            && "Content-Range" in r.value.headers
            && r.value.headers["Content-Range"]
               == "bytes " + NatToString(start) + "-" + NatToString(stop - 1) + "/" + NatToString(nbytes)
  {
    assert RangeOutcomeOf(Some(h), Some(nbytes)) == Partial(start, stop);
    var text := PartialRangeText(start, stop, nbytes);
    var hdrs := ContentHeaders(c)["Content-Range" := text];
    assert GetContent(Some(h), Some(nbytes), what, c, getBody)
           == Ok(Reply(206, hdrs, if getBody then c.chunks else []));
    assert hdrs["Content-Range"] == text;
  }

  /** The decision behind `ClosedRangeReply`. */
  lemma ClosedRangeDecision(first: nat, last: nat, nbytes: nat)
    requires first <= last < nbytes
    requires !(first == 0 && last == nbytes - 1)
    ensures RangeHeader([Format(ClosedSpec(first, last))]) != ""
    ensures DecideRange(RangeHeader([Format(ClosedSpec(first, last))]), nbytes) == Partial(first, last + 1)
  {
    var sp := ClosedSpec(first, last);
    ExpectedOne(sp, nbytes);
    assert Expected([sp], nbytes) == Partial(first, last + 1);
    DecideMatchesExpected([Format(sp)], [sp], nbytes);
  }

  /** A header of one accepted spec is decided by that spec alone. */
  lemma ExpectedOne(sp: ByteRangeSpec, nbytes: nat)
    requires Accepted(sp)
    ensures Expected([sp], nbytes)
            == if !Satisfiable(sp, nbytes) then Unsatisfiable(nbytes)
               else if FirstByte(sp, nbytes) == 0 && EndByte(sp, nbytes) == nbytes then Full
               else Partial(FirstByte(sp, nbytes), EndByte(sp, nbytes))
  {
    assert [sp][1..] == [];
    assert SatisfiableSpecs([sp], nbytes) == if Satisfiable(sp, nbytes) then [sp] else [];
  }

  /** A range starting at or past the end of the entity is unsatisfiable:
      `GetContent` answers it 416 with the entity length. */
  lemma BeyondEntityUnsatisfiable(first: nat, nbytes: nat)
    requires first >= nbytes
    ensures RangeHeader([Format(OpenSpec(first))]) != ""
    ensures DecideRange(RangeHeader([Format(OpenSpec(first))]), nbytes) == Unsatisfiable(nbytes)
  {
    var sp := OpenSpec(first);
    DecideMatchesExpected([Format(sp)], [sp], nbytes);
    ExpectedOne(sp, nbytes);
  }

  /** A header the engine cannot read gets exactly the reply of a request
      without a `Range` header. */
  lemma UnreadableHeaderLikeNoHeader(texts: seq<string>, k: nat, nbytes: nat, what: string, c: Content, getBody: bool)
    requires forall i :: 0 <= i < |texts| ==> ',' !in texts[i] && '=' !in texts[i]
    requires k < |texts|
    requires forall sp :: !Denotes(texts[k], sp)
    ensures GetContent(Some(RangeHeader(texts)), Some(nbytes), what, c, getBody)
            == GetContent(None, Some(nbytes), what, c, getBody)
  {
    UnreadableSpecIgnored(texts, k, nbytes);
    assert RangeHeader(texts) != "";
  }
}

=== FILE: ranges.dfy ===
/** The byte-range engine of `RestHandler.get_content`: the `Range` header is
    parsed into slices of the entity, the slices that start inside the entity
    are kept, and the survivors decide between the whole entity (200), one
    partial slice (206), an unsatisfiable request (416) and an unsupported one
    (501). A header with a syntax error is ignored, as if it were absent. */
module Ranges {
  import opened Wrappers
  import opened Strings
  import opened RestErrors

  /** A Python `slice(start, stop)` as the parser builds it: bytes `start`
      up to, not including, `stop` (before clamping to the entity). */
  datatype Slice = Slice(start: nat, stop: nat)

  /** Why a range request is answered 501. */
  datatype NotImplReason = NoRangeSupport | UnknownUnit(units: string) | MultipleRanges

  /** The decision `get_content` takes about a request. */
  datatype RangeOutcome =
    | Full                               // 200, the whole entity
    | Partial(start: nat, stop: nat)     // 206, bytes [start, stop)
    | Unsatisfiable(nbytes: nat)         // 416, Content-Range: bytes */nbytes
    | NotImpl(reason: NotImplReason)     // 501

  function Max(a: int, b: int): int { if a < b then b else a }

  function Min(a: int, b: int): int { if a < b then a else b }

  /** What every slice the parser builds satisfies: it is non-empty, or it
      stops exactly at the end of the entity. */
  predicate Shaped(s: Slice, nbytes: nat)
  {
    s.start < s.stop || s.stop == nbytes
  }

  /** One comma-separated spec: `-N` (the last N bytes), `M-` (from M to the
      end) or `M-N` (M to N inclusive). `None` is the `ValueError` the source
      raises: no `-`, a bound that is not a number, a zero suffix, `N < M`. */
  function ParseSpec(r: string, nbytes: nat): (s: Option<Slice>)
    ensures s.Some? ==> Shaped(s.value, nbytes)
  {
    match SplitOnce(r, '-')
    case None => None
    case Some((first, last)) =>
      if first == "" then
        match ParseNat(last)
        case None => None
        case Some(length) =>
          if length == 0 then None
          else
            var clamped := if length > nbytes then nbytes else length;
            Some(Slice(Max(0, nbytes - clamped), nbytes))
      else
        match ParseNat(first)
        case None => None
        case Some(f) =>
          if last == "" then Some(Slice(f, nbytes))
          else
            match ParseNat(last)
            case None => None
            case Some(l) => if l < f then None else Some(Slice(f, l + 1))
  }

  /** The loop over the comma-separated specs: every spec parses, or the
      whole header is a syntax error. */
  function ParseSpecs(rs: seq<string>, nbytes: nat): (r: Option<seq<Slice>>)
    ensures r.Some? ==> |r.value| == |rs|
    decreases |rs|
  {
    if |rs| == 0 then Some([])
    else
      match ParseSpec(rs[0], nbytes)
      case None => None
      case Some(s) =>
        match ParseSpecs(rs[1..], nbytes)
        case None => None
        case Some(ss) => Some([s] + ss)
  }

  /** The loop fails exactly when one of the specs fails, and otherwise
      holds each spec's slice at the spec's position. */
  lemma ParseSpecsPointwise(rs: seq<string>, nbytes: nat)
    ensures ParseSpecs(rs, nbytes).None? <==> exists i :: 0 <= i < |rs| && ParseSpec(rs[i], nbytes).None?
    ensures ParseSpecs(rs, nbytes).Some? ==>
              forall i :: 0 <= i < |rs| ==> ParseSpec(rs[i], nbytes) == Some(ParseSpecs(rs, nbytes).value[i])
  {
    ParseSpecsFails(rs, nbytes);
    ParseSpecsPositions(rs, nbytes);
  }

  lemma {:induction false} ParseSpecsFails(rs: seq<string>, nbytes: nat)
    ensures ParseSpecs(rs, nbytes).None? <==> exists i :: 0 <= i < |rs| && ParseSpec(rs[i], nbytes).None?
    decreases |rs|
  {
    if |rs| > 0 && ParseSpec(rs[0], nbytes).Some? {
      var tail := rs[1..];
      ParseSpecsFails(tail, nbytes);
      assert ParseSpecs(rs, nbytes).None? <==> ParseSpecs(tail, nbytes).None?;
      if exists i :: 0 <= i < |rs| && ParseSpec(rs[i], nbytes).None? {
        var i :| 0 <= i < |rs| && ParseSpec(rs[i], nbytes).None?;
        assert tail[i - 1] == rs[i];
      }
      if exists j :: 0 <= j < |tail| && ParseSpec(tail[j], nbytes).None? {
        var j :| 0 <= j < |tail| && ParseSpec(tail[j], nbytes).None?;
        assert rs[j + 1] == tail[j];
      }
    }
  }

  lemma {:induction false} ParseSpecsPositions(rs: seq<string>, nbytes: nat)
    ensures ParseSpecs(rs, nbytes).Some? ==>
              forall i :: 0 <= i < |rs| ==> ParseSpec(rs[i], nbytes) == Some(ParseSpecs(rs, nbytes).value[i])
    decreases |rs|
  {
    if |rs| > 0 && ParseSpecs(rs, nbytes).Some? {
      var tail := rs[1..];
      ParseSpecsPositions(tail, nbytes);
      var ss := ParseSpecs(tail, nbytes).value;
      assert ParseSpecs(rs, nbytes).value == [ParseSpec(rs[0], nbytes).value] + ss;
      assert forall i :: 1 <= i < |rs| ==> rs[i] == tail[i - 1];
    }
  }

  /** `intersects_resource`, as written: a slice passes when it starts
      inside the entity and does not run backwards. */
  function Intersects(s: Slice, nbytes: nat): (b: bool)
    ensures b <==> s.start < nbytes && s.start <= s.stop
  {
    s.start < nbytes && s.start < s.stop + 1
  }

  /** The slices that pass `intersects_resource`, in order: every kept slice
      was given and passes, and every given slice that passes is kept. */
  function Surviving(ss: seq<Slice>, nbytes: nat): (kept: seq<Slice>)
    ensures |kept| <= |ss|
    ensures forall i :: 0 <= i < |kept| ==> kept[i] in ss && Intersects(kept[i], nbytes)
    ensures forall i :: 0 <= i < |ss| && Intersects(ss[i], nbytes) ==> ss[i] in kept
    decreases |ss|
  {
    if |ss| == 0 then []
    else
      var rest := Surviving(ss[1..], nbytes);
      assert forall i :: 1 <= i < |ss| ==> ss[i] == ss[1..][i - 1];
      (if Intersects(ss[0], nbytes) then [ss[0]] else []) + rest
  }

  /** The filter works slice by slice: filtering a concatenation filters
      each part. */
  lemma {:induction false} SurvivingConcat(a: seq<Slice>, b: seq<Slice>, nbytes: nat)
    ensures Surviving(a + b, nbytes) == Surviving(a, nbytes) + Surviving(b, nbytes)
    decreases |a|
  {
    if |a| > 0 {
      assert (a + b)[1..] == a[1..] + b;
      SurvivingConcat(a[1..], b, nbytes);
      ConcatAssoc(if Intersects(a[0], nbytes) then [a[0]] else [], Surviving(a[1..], nbytes), Surviving(b, nbytes));
    } else {
      assert a + b == b;
    }
  }

  /** For every slice the parser can build, `intersects_resource` only asks
      whether the slice starts inside the entity. */
  lemma FilterIsStartInside(r: string, nbytes: nat)
    requires ParseSpec(r, nbytes).Some?
    ensures Intersects(ParseSpec(r, nbytes).value, nbytes) <==> ParseSpec(r, nbytes).value.start < nbytes
  {
  }

  /** The choice among the parsed slices: none starting inside the entity
      is 416, more than one is 501, and one is 206 for that slice clamped to
      the entity, or 200 when it covers the entity exactly. */
  function ChooseSlice(slices: seq<Slice>, nbytes: nat): (o: RangeOutcome)
    requires forall i :: 0 <= i < |slices| ==> Shaped(slices[i], nbytes)
    ensures o.Partial? ==> o.start < o.stop <= nbytes && !(o.start == 0 && o.stop == nbytes)
    ensures o.Unsatisfiable? ==> o.nbytes == nbytes
    ensures !o.NotImpl? || o.reason == MultipleRanges
    ensures nbytes == 0 ==> !o.Partial?
  {
    var kept := Surviving(slices, nbytes);
    if |kept| == 0 then Unsatisfiable(nbytes)
    else if |kept| > 1 then NotImpl(MultipleRanges)
    else
      var s := kept[0];
      assert Shaped(s, nbytes);
      var stop := Min(s.stop, nbytes);
      if s.start == 0 && stop == nbytes then Full else Partial(s.start, stop)
  }

  /** The `try` block of `get_content` after the unit check: a syntax error
      in any spec means the whole entity, otherwise the slices decide. */
  function DecideSpecs(rs: seq<string>, nbytes: nat): (o: RangeOutcome)
    ensures o.Partial? ==> o.start < o.stop <= nbytes && !(o.start == 0 && o.stop == nbytes)
    ensures o.Unsatisfiable? ==> o.nbytes == nbytes
    ensures !o.NotImpl? || o.reason == MultipleRanges
    ensures nbytes == 0 ==> !o.Partial?
  {
    match ParseSpecs(rs, nbytes)
    case None => Full
    case Some(slices) =>
      ParseSpecsPointwise(rs, nbytes);
      ChooseSlice(slices, nbytes)
  }

  /** The body of the `try` block of `get_content` for a resource of
      `nbytes` bytes and a non-empty `Range` header: a header without exactly
      one `=` is ignored, a unit other than `bytes` (in any case) is 501. */
  function DecideRange(header: string, nbytes: nat): (o: RangeOutcome)
    ensures o.Partial? ==> o.start < o.stop <= nbytes && !(o.start == 0 && o.stop == nbytes)
    ensures o.Unsatisfiable? ==> o.nbytes == nbytes
    ensures o.NotImpl? ==> !o.reason.NoRangeSupport?
    ensures nbytes == 0 ==> !o.Partial?
  {
    var parts := Split(header, '=');
    if |parts| != 2 then Full
    else if Lower(parts[0]) != "bytes" then NotImpl(UnknownUnit(parts[0]))
    else DecideSpecs(Split(parts[1], ','), nbytes)
  }

  /** The whole decision of `get_content`. An absent or empty header asks
      for the whole entity; `nbytes` is `None` for a resource without a
      length or ranged access, which cannot serve a range. */
  function RangeOutcomeOf(header: Option<string>, nbytes: Option<nat>): (o: RangeOutcome)
    ensures o.Partial? ==> nbytes.Some? && o.start < o.stop <= nbytes.value
    ensures header.None? || header.value == "" ==> o == Full
    ensures header.Some? && header.value != "" && nbytes.None? ==> o == NotImpl(NoRangeSupport)
    ensures header.Some? && header.value != "" && nbytes.Some? ==> o == DecideRange(header.value, nbytes.value)
  {
    if header.None? || header.value == "" then Full
    else if nbytes.None? then NotImpl(NoRangeSupport)
    else DecideRange(header.value, nbytes.value)
  }

  /* ----- the response ----- */

  /** What the storage layer hands back for the selection `get_content`
      asks for (the whole entity, or the chosen slice): the length it
      reports, its media type, its digest as sent, and its body chunks. */
  datatype Content = Content(length: nat, contentType: Option<string>, md5: Option<string>, chunks: seq<string>)

  /** The `Content-Range` value of a 206 reply for bytes `[start, stop)`:
      it reads back as the first and last byte and the entity length. */
  function PartialRangeText(start: nat, stop: nat, nbytes: nat): (t: string)
    requires start < stop
    ensures ReadContentRange(t) == Some((start, stop - 1, nbytes))
  {
    var a, b, c := NatToString(start), NatToString(stop - 1), NatToString(nbytes);
    ContentRangePieces(a, b, c);
    ParseNatToString(start);
    ParseNatToString(stop - 1);
    ParseNatToString(nbytes);
    "bytes " + a + "-" + b + "/" + c
  }

  /** A reader of `Content-Range` values `bytes <first>-<last>/<length>`,
      as a client reads them. */
  function ReadContentRange(t: string): Option<(nat, nat, nat)>
  {
    if |t| < 6 || t[..6] != "bytes " then None
    else
      match SplitOnce(t[6..], '-')
      case None => None
      case Some((a, rest)) =>
        match SplitOnce(rest, '/')
        case None => None
        case Some((b, c)) =>
          if ParseNat(a).Some? && ParseNat(b).Some? && ParseNat(c).Some?
          then Some((ParseNat(a).value, ParseNat(b).value, ParseNat(c).value))
          else None
  }

  /** Where the reader splits a value built from digit strings. */
  lemma ContentRangePieces(a: string, b: string, c: string)
    requires AllDigits(a) && AllDigits(b)
    ensures var t := "bytes " + a + "-" + b + "/" + c;
            && |t| >= 6 && t[..6] == "bytes "
            && SplitOnce(t[6..], '-') == Some((a, b + "/" + c))
            && SplitOnce(b + "/" + c, '/') == Some((b, c))
  {
    var t := "bytes " + a + "-" + b + "/" + c;
    assert t[..6] == "bytes ";
    assert t[6..] == a + ['-'] + (b + "/" + c);
    assert b + "/" + c == b + ['/'] + c;
    assert '-' !in a by {
      assert forall k :: 0 <= k < |a| ==> IsDigit(a[k]);
    }
    assert '/' !in b by {
      assert forall k :: 0 <= k < |b| ==> IsDigit(b[k]);
    }
    SplitOnceAt(a, b + "/" + c, '-');
    SplitOnceAt(b, c, '/');
  }

  /** Headers that are set only when the value is present and non-empty. */
  function SetIfTruthy(h: map<string, string>, key: string, value: Option<string>): map<string, string>
  {
    if value.Some? && value.value != "" then h[key := value.value] else h
  }

  /** The headers of a 200 or 206 reply. */
  function ContentHeaders(c: Content): (h: map<string, string>)
    ensures "Content-Length" in h && h["Content-Length"] == NatToString(c.length)
    ensures "Content-Range" !in h
  {
    var h := map["Content-Length" := NatToString(c.length)];
    SetIfTruthy(SetIfTruthy(h, "Content-Type", c.contentType), "Content-MD5", c.md5)
  }

  /** The error `get_content` raises for a 416 or 501 decision; `what` is
      the resource's text in the message. */
  function RangeError(o: RangeOutcome, what: string): (e: RestError)
    requires o.Unsatisfiable? || o.NotImpl?
    ensures o.Unsatisfiable? ==>
              e.kind == BadRange && "Content-Range" in e.headers && e.headers["Content-Range"] == "bytes */" + NatToString(o.nbytes)
    ensures o.NotImpl? ==> e.kind == NotImplemented
  {
    match o
    case Unsatisfiable(n) =>
      NewBadRange(Some("Range not satisfiable for resource " + what + "."), map[], Some(n))
    case NotImpl(NoRangeSupport) =>
      NewError(NotImplemented, Some("Range requests not implemented for resource " + what + "."), map[])
    case NotImpl(UnknownUnit(u)) =>
      NewError(NotImplemented, Some("Range requests with units \"" + u + "\" not implemented."), map[])
    case NotImpl(MultipleRanges) =>
      NewError(NotImplemented, Some("Multiple range request not implemented for resource " + what + "."), map[])
  }

  /** `get_content`: the reply for the resource, or the error it raises.
      `getBody` is false for `HEAD`, which sends the same status and headers
      and no body. */
  function GetContent(header: Option<string>, nbytes: Option<nat>, what: string,
                      c: Content, getBody: bool): (r: Result<Reply, RestError>)
    ensures r.Ok? ==> r.value.status == 200 || r.value.status == 206
    ensures r.Ok? && r.value.status == 206 ==>
              && RangeOutcomeOf(header, nbytes).Partial?
              && "Content-Range" in r.value.headers
              && r.value.headers["Content-Range"] == PartialRangeText(RangeOutcomeOf(header, nbytes).start,
                                                                      RangeOutcomeOf(header, nbytes).stop, nbytes.value)
    ensures r.Ok? ==> "Content-Length" in r.value.headers && r.value.headers["Content-Length"] == NatToString(c.length)
    ensures r.Ok? ==> (r.value.body == if getBody then c.chunks else [])
    ensures r.Err? <==> RangeOutcomeOf(header, nbytes).Unsatisfiable? || RangeOutcomeOf(header, nbytes).NotImpl?
    ensures r.Err? ==> r.error.kind in {BadRange, NotImplemented}
    ensures RangeOutcomeOf(header, nbytes).Unsatisfiable? ==>
              && r.Err? && r.error.kind == BadRange
              && "Content-Range" in r.error.headers
              && r.error.headers["Content-Range"] == "bytes */" + NatToString(nbytes.value)
  {
    var o := RangeOutcomeOf(header, nbytes);
    match o
    case Full =>
      Ok(Reply(200, ContentHeaders(c), if getBody then c.chunks else []))
    case Partial(start, stop) =>
      var h := ContentHeaders(c)["Content-Range" := PartialRangeText(start, stop, nbytes.value)];
      Ok(Reply(206, h, if getBody then c.chunks else []))
    case _ => Err(RangeError(o, what))
  }

  /** Without a `Range` header, or with an empty one, the whole entity is
      sent with 200, whatever the resource supports. */
  lemma NoRangeIsWholeEntity(header: Option<string>, nbytes: Option<nat>, what: string, c: Content, getBody: bool)
    requires header.None? || header.value == ""
    ensures GetContent(header, nbytes, what, c, getBody) == Ok(Reply(200, ContentHeaders(c), if getBody then c.chunks else []))
  {
  }

  /** A ranged request on a resource without a length or ranged access is
      refused 501, whatever the header says. */
  lemma RangeWithoutSupportNotImplemented(h: string, what: string, c: Content, getBody: bool)
    requires h != ""
    ensures var r := GetContent(Some(h), None, what, c, getBody);
            r.Err? && r.error.kind == NotImplemented
  {
  }

  /** A `HEAD` request differs from a `GET` only in sending no body. */
  lemma HeadMatchesGet(header: Option<string>, nbytes: Option<nat>, what: string, c: Content)
    ensures var get := GetContent(header, nbytes, what, c, true);
            var head := GetContent(header, nbytes, what, c, false);
            && get.Ok? == head.Ok?
            && (get.Err? ==> get.error == head.error)
            && (get.Ok? ==> head.value == get.value.(body := []))
  {
  }

  /** The generator `get_content` as the wrapper runs it: the range decision
      comes first, and only a 200 or 206 decision reads the content from
      storage (`get_content` or `get_content_range`). So a 416 or 501 is
      raised whatever that read would give, and a read that fails after
      the decision is raised as the storage layer's failure. */
  function ServeContent(header: Option<string>, nbytes: Option<nat>, what: string,
                        read: Result<Content, Failure>, getBody: bool): (r: Result<Reply, Failure>)
    ensures var o := RangeOutcomeOf(header, nbytes);
            (o.Unsatisfiable? || o.NotImpl?) ==> r == Err(Raised(RangeError(o, what)))
    ensures var o := RangeOutcomeOf(header, nbytes);
            !(o.Unsatisfiable? || o.NotImpl?) && read.Err? ==> r == Err(read.error)
    ensures read.Ok? ==>
              var g := GetContent(header, nbytes, what, read.value, getBody);
              && (g.Ok? ==> r == Ok(g.value))
              && (g.Err? ==> r == Err(Raised(g.error)))
  {
    var o := RangeOutcomeOf(header, nbytes);
    if o.Unsatisfiable? || o.NotImpl? then Err(Raised(RangeError(o, what)))
    else
      match read
      case Err(f) => Err(f)
      case Ok(c) => Ok(GetContent(header, nbytes, what, c, getBody).value)
  }

  /** A 416 or 501 decision is answered the same whatever the storage read returns. */
  lemma RangeErrorIgnoresRead(header: Option<string>, nbytes: Option<nat>, what: string,
                              read1: Result<Content, Failure>, read2: Result<Content, Failure>, getBody: bool)
    ensures var o := RangeOutcomeOf(header, nbytes);
            (o.Unsatisfiable? || o.NotImpl?) ==>
              && ServeContent(header, nbytes, what, read1, getBody) == ServeContent(header, nbytes, what, read2, getBody)
              && ServeContent(header, nbytes, what, read1, getBody).Err?
  {
  }
}

=== FILE: rest_errors.dfy ===
/** The REST error classes of the service, the translation of storage-layer
    errors into them, and the request wrapper that performs that translation. */
module RestErrors {
  import opened Wrappers
  import opened Strings

  /** What goes back to the client: status code, headers and body chunks. */
  datatype Reply = Reply(status: nat, headers: map<string, string>, body: seq<string>)

  /** The `RestException` subclasses. */
  datatype ErrorKind =
    | BadRequest
    | Unauthorized
    | Forbidden
    | NotFound
    | NoMethod
    | Conflict
    | LengthRequired
    | BadRange
    | NotImplemented

  /** An HTTP status line as web.py sends it: the decimal code, a space,
      the reason phrase. */
  function StatusText(code: nat, phrase: string): string
  {
    NatToString(code) + " " + phrase
  }

  /** How a client reads the code back: the number before the first space. */
  function ReadStatusCode(line: string): Option<nat>
  {
    match SplitOnce(line, ' ')
    case None => None
    case Some((digits, _)) => ParseNat(digits)
  }

  /** A status line reads back as the code it was written with. */
  lemma ReadStatusText(code: nat, phrase: string)
    ensures ReadStatusCode(StatusText(code, phrase)) == Some(code)
  {
    var digits := NatToString(code);
    assert ' ' !in digits by {
      assert forall k :: 0 <= k < |digits| ==> IsDigit(digits[k]);
    }
    assert StatusText(code, phrase) == digits + [' '] + phrase;
    SplitOnceAt(digits, phrase, ' ');
    ParseNatToString(code);
  }

  /** The reason phrase of each error class. */
  function ReasonPhrase(k: ErrorKind): string
  {
    match k
    case BadRequest => "Bad Request"
    case Unauthorized => "Unauthorized"
    case Forbidden => "Forbidden"
    case NotFound => "Not Found"
    case NoMethod => "Method Not Allowed"
    case Conflict => "Conflict"
    case LengthRequired => "Length Required"
    case BadRange => "Requested Range Not Satisfiable"
    case NotImplemented => "Not Implemented"
  }

  /** The numeric code of each error class: a client or server error. */
  function StatusCode(k: ErrorKind): (code: nat)
    ensures 400 <= code < 600
  {
    match k
    case BadRequest => 400
    case Unauthorized => 401
    case Forbidden => 403
    case NotFound => 404
    case NoMethod => 405
    case Conflict => 409
    case LengthRequired => 411
    case BadRange => 416
    case NotImplemented => 501
  }

  /** The class-level `status` string of each error class (`"400 Bad
      Request"`, ...): it announces the class's code. */
  function StatusLine(k: ErrorKind): (line: string)
    ensures ReadStatusCode(line) == Some(StatusCode(k))
  {
    ReadStatusText(StatusCode(k), ReasonPhrase(k));
    StatusText(StatusCode(k), ReasonPhrase(k))
  }

  /** No two error classes share a status code. */
  lemma StatusCodeInjective(a: ErrorKind, b: ErrorKind)
    ensures StatusCode(a) == StatusCode(b) ==> a == b
  {
  }

  /** The class-level `message` used when no message is supplied. */
  function DefaultMessage(k: ErrorKind): (m: string)
    ensures |m| > 0
  {
    match k
    case BadRequest => "Request malformed."
    case Unauthorized => "Access requires authentication."
    case Forbidden => "Access forbidden."
    case NotFound => "Resource not found."
    case NoMethod => "Request method not allowed on this resource."
    case Conflict => "Request conflicts with state of server."
    case LengthRequired => "Content-Length header is required for this request."
    case BadRange => "Requested Range is not satisfiable for this resource."
    case NotImplemented => "Request not implemented for this resource."
  }

  /** The class-level default headers. */
  const PlainText: map<string, string> := map["Content-Type" := "text/plain"]

  /** A raised `RestException`: its class, response headers and body. */
  datatype RestError = RestError(kind: ErrorKind, headers: map<string, string>, body: string)

  /** The message a `RestException` carries: the given one unless it is absent or empty. */
  function MessageOr(message: Option<string>, k: ErrorKind): string
  {
    if message.Some? && message.value != "" then message.value else DefaultMessage(k)
  }

  /** The headers of a raised error: the class defaults, overridden and
      extended by the supplied ones when there are any. */
  function MergedHeaders(headers: map<string, string>): (hdr: map<string, string>)
    ensures hdr.Keys == headers.Keys + {"Content-Type"}
    ensures forall h :: h in headers ==> hdr[h] == headers[h]
    ensures "Content-Type" !in headers ==> hdr["Content-Type"] == "text/plain"
  {
    if |headers| == 0 then
      NoHeaders(headers);
      PlainText
    else PlainText + headers
  }

  lemma NoHeaders(headers: map<string, string>)
    requires |headers| == 0
    ensures headers.Keys == {}
  {
    assert |headers.Keys| == 0;
  }

  /** The body of a raised error: its message and a newline. */
  function MessageLine(msg: string): (body: string)
    ensures |body| > 0 && body[|body| - 1] == '\n'
    ensures body[..|body| - 1] == msg
  {
    var body := msg + "\n";
    assert body[..|body| - 1] == msg;
    body
  }

  /** `RestException.__init__(message, headers)`. */
  function NewError(k: ErrorKind, message: Option<string>, headers: map<string, string>): (e: RestError)
    ensures e.kind == k
    ensures e.headers.Keys == headers.Keys + {"Content-Type"}
    ensures forall h :: h in headers ==> e.headers[h] == headers[h]
    ensures "Content-Type" !in headers ==> e.headers["Content-Type"] == "text/plain"
    ensures |e.body| > 0 && e.body[|e.body| - 1] == '\n'
    ensures message.Some? && message.value != "" ==> e.body[..|e.body| - 1] == message.value
    ensures (message.None? || message.value == "") ==> e.body[..|e.body| - 1] == DefaultMessage(k)
  {
    RestError(k, MergedHeaders(headers), MessageLine(MessageOr(message, k)))
  }

  /** `BadRange(msg, headers, nbytes)`: a 416 that also reports the entity length. */
  function NewBadRange(message: Option<string>, headers: map<string, string>, nbytes: Option<nat>): (e: RestError)
    ensures e.kind == BadRange
    ensures nbytes.Some? ==> "Content-Range" in e.headers
                             && e.headers["Content-Range"] == "bytes */" + NatToString(nbytes.value)
    ensures nbytes.None? ==> e == NewError(BadRange, message, headers)
  {
    var e := NewError(BadRange, message, headers);
    if nbytes.Some? then e.(headers := e.headers["Content-Range" := "bytes */" + NatToString(nbytes.value)])
    else e
  }

  /** The response the web framework sends for a raised error: the class's
      status line, the error's headers and its body as the one chunk. */
  function ErrorReply(e: RestError): (r: Reply)
    ensures ReadStatusCode(StatusLine(e.kind)) == Some(r.status)
    ensures r.headers == e.headers && r.body == [e.body]
  {
    Reply(StatusCode(e.kind), e.headers, [e.body])
  }

  /* ----- storage-layer errors and their translation ----- */

  /** The storage layer's own exception classes. */
  datatype CoreErrorKind = CoreBadRequest | Unauthenticated | CoreForbidden | CoreNotFound | CoreConflict

  /** A storage-layer exception with its `str()` text. */
  datatype CoreError = CoreError(kind: CoreErrorKind, message: string)

  /** The REST class each storage-layer class is re-raised as. */
  function RestKindOf(k: CoreErrorKind): (r: ErrorKind)
    ensures r in {BadRequest, Unauthorized, Forbidden, NotFound, Conflict}
  {
    match k
    case CoreBadRequest => BadRequest
    case Unauthenticated => Unauthorized
    case CoreForbidden => Forbidden
    case CoreNotFound => NotFound
    case CoreConflict => Conflict
  }

  /** Distinct storage-layer errors stay distinct on the wire. */
  lemma RestKindOfInjective(a: CoreErrorKind, b: CoreErrorKind)
    ensures StatusCode(RestKindOf(a)) == StatusCode(RestKindOf(b)) ==> a == b
  {
  }

  /** Re-raising a storage-layer error as its REST counterpart, keeping its text. */
  function Translate(d: CoreError): (e: RestError)
    ensures e.kind == RestKindOf(d.kind)
    ensures e.headers == PlainText
    ensures e.body == (if d.message != "" then d.message else DefaultMessage(e.kind)) + "\n"
  {
    NewError(RestKindOf(d.kind), Some(d.message), map[])
  }

  /* ----- the request wrapper ----- */

  /** How a handler can fail: a storage-layer error, a REST error it raised
      itself, or anything else (which the web framework turns into a 500). */
  datatype Failure = Core(core: CoreError) | Raised(rest: RestError) | Crash

  const AuthFailureMessage: string := "service access requires client authentication"

  /** The status of the web framework's internal-error response. */
  const InternalErrorStatus: nat := 500

  /** `web_method`: reject a request whose credentials cannot be resolved,
      otherwise run the handler and translate the storage-layer errors it raises. */
  function WebMethod(authenticated: bool, run: Result<Reply, Failure>): (r: Reply)
    ensures !authenticated ==> r.status == 401 && r.body == [AuthFailureMessage + "\n"]
    ensures authenticated && run.Ok? ==> r == run.value
    ensures authenticated && run.Err? && run.error.Core? ==>
              r.status == StatusCode(RestKindOf(run.error.core.kind)) && r.headers == PlainText
    ensures authenticated && run.Err? && run.error.Raised? ==> r == ErrorReply(run.error.rest)
    ensures authenticated && run == Err(Crash) ==> r.status == InternalErrorStatus
  {
    if !authenticated then ErrorReply(NewError(Unauthorized, Some(AuthFailureMessage), map[]))
    else
      match run
      case Ok(reply) => reply
      case Err(Core(d)) => ErrorReply(Translate(d))
      case Err(Raised(e)) => ErrorReply(e)
      case Err(Crash) => Reply(InternalErrorStatus, map[], [])
  }

  /** A reply whose body is the one line `text` followed by a newline, sent as plain text. */
  predicate PlainLine(r: Reply, text: string)
  {
    && |r.body| == 1
    && |r.body[0]| > 1 && r.body[0][|r.body[0]| - 1] == '\n'
    && r.body[0][..|r.body[0]| - 1] == text
    && "Content-Type" in r.headers && r.headers["Content-Type"] == "text/plain"
  }

  /** Every error the wrapper produces from a storage-layer error is one plain-text
      body ending in a newline: the error's own text when it has one, the class
      default otherwise. */
  lemma CoreErrorBody(d: CoreError)
    ensures d.message != "" ==> PlainLine(WebMethod(true, Err(Core(d))), d.message)
    ensures d.message == "" ==> PlainLine(WebMethod(true, Err(Core(d))), DefaultMessage(RestKindOf(d.kind)))
  {
    var text := if d.message != "" then d.message else DefaultMessage(RestKindOf(d.kind));
    CoreReply(d);
    EndsWithNewline(text);
  }

  lemma CoreReply(d: CoreError)
    ensures WebMethod(true, Err(Core(d))) == Reply(StatusCode(RestKindOf(d.kind)), PlainText, [Translate(d).body])
  {
    assert WebMethod(true, Err(Core(d))) == ErrorReply(Translate(d));
  }

  lemma EndsWithNewline(text: string)
    requires text != ""
    ensures var line := text + "\n"; |line| > 1 && line[|line| - 1] == '\n' && line[..|line| - 1] == text
  {
    var line := text + "\n";
    assert line[..|line| - 1] == text;
  }

  /* ----- success responses ----- */

  /** The status line of both success responses below, `"204 No Content"`. */
  const NoContentLine: string := StatusText(204, "No Content")

  /** `update_response`: `204 No Content`, no headers and an empty body. */
  function UpdateResponse(): (r: Reply)
    ensures ReadStatusCode(NoContentLine) == Some(r.status)
    ensures r.headers == map[] && r.body == []
  {
    ReadStatusText(204, "No Content");
    Reply(204, map[], [])
  }

  /** `delete_response`: `204 No Content`, no headers and an empty body. */
  function DeleteResponse(): (r: Reply)
    ensures ReadStatusCode(NoContentLine) == Some(r.status)
    ensures r.headers == map[] && r.body == []
  {
    ReadStatusText(204, "No Content");
    Reply(204, map[], [])
  }
}

=== FILE: strings.dfy ===
/** The string primitives the request code leans on: Python's one-character
    `str.split`, `join`, ASCII `lower`, whitespace `strip` and decimal `int`,
    with the algebra that connects them. */
module Strings {
  import opened Wrappers

  /* ----- split and join ----- */

  /** `s.split(d)` for a single-character separator: one more piece than
      there are separators, none of which contains the separator. */
  function Split(s: string, d: char): (parts: seq<string>)
    ensures |parts| >= 1
    ensures forall i :: 0 <= i < |parts| ==> d !in parts[i]
    decreases |s|
  {
    if |s| == 0 then [""]
    else
      var rest := Split(s[1..], d);
      if s[0] == d then [""] + rest
      else [[s[0]] + rest[0]] + rest[1..]
  }

  /** `d.join(parts)`: the text opens with the first piece. */
  function Join(parts: seq<string>, d: char): (s: string)
    ensures |parts| > 0 ==> parts[0] <= s
  {
    if |parts| == 0 then ""
    else if |parts| == 1 then parts[0]
    else parts[0] + [d] + Join(parts[1..], d)
  }

  /** Joining separator-free pieces puts exactly one separator between neighbours. */
  lemma {:induction false} JoinCount(parts: seq<string>, d: char)
    requires |parts| > 0
    requires forall i :: 0 <= i < |parts| ==> d !in parts[i]
    ensures multiset(Join(parts, d))[d] == |parts| - 1
    decreases |parts|
  {
    if |parts| > 1 {
      var rest := Join(parts[1..], d);
      assert forall i :: 1 <= i < |parts| ==> parts[i] == parts[1..][i - 1];
      JoinCount(parts[1..], d);
      assert multiset(parts[0] + [d] + rest) == multiset(parts[0]) + multiset([d]) + multiset(rest);
    }
  }

  /** One step of `Split`: a leading separator closes an empty piece. */
  lemma SplitConsSeparator(t: string, d: char)
    ensures Split([d] + t, d) == [""] + Split(t, d)
  {
    assert ([d] + t)[1..] == t;
  }

  /** One step of `Split`: any other leading character opens the first piece. */
  lemma SplitConsOther(c: char, t: string, d: char)
    requires c != d
    ensures Split([c] + t, d) == [[c] + Split(t, d)[0]] + Split(t, d)[1..]
  {
    assert ([c] + t)[1..] == t;
  }

  /** Splitting at a separator that is really there splits the two sides independently. */
  lemma {:induction false} SplitConcat(x: string, y: string, d: char)
    ensures Split(x + [d] + y, d) == Split(x, d) + Split(y, d)
    decreases |x|
  {
    if |x| == 0 {
      assert x + [d] + y == [d] + y;
      SplitConsSeparator(y, d);
    } else {
      SplitConcat(x[1..], y, d);
      SplitConcatStep(x[0], x[1..], y, d);
      assert [x[0]] + x[1..] == x;
    }
  }

  /** The inductive step of `SplitConcat`: one more leading character. */
  lemma SplitConcatStep(c: char, t: string, y: string, d: char)
    requires Split(t + [d] + y, d) == Split(t, d) + Split(y, d)
    ensures Split([c] + t + [d] + y, d) == Split([c] + t, d) + Split(y, d)
  {
    var u := t + [d] + y;
    ConsConcat(c, t, [d], y);
    if c == d {
      SplitConsSeparator(u, d);
      SplitConsSeparator(t, d);
      ConcatAssoc([""], Split(t, d), Split(y, d));
    } else {
      SplitConsOther(c, u, d);
      SplitConsOther(c, t, d);
      ConsHeadConcat([c], Split(t, d), Split(y, d));
    }
  }

  lemma ConcatAssoc<T>(a: seq<T>, b: seq<T>, c: seq<T>)
    ensures a + (b + c) == (a + b) + c
  {
  }

  lemma ConsConcat<T>(x: T, a: seq<T>, b: seq<T>, c: seq<T>)
    ensures [x] + a + b + c == [x] + (a + b + c)
  {
  }

  /** Extending the first piece of a non-empty list commutes with appending more pieces. */
  lemma ConsHeadConcat<T>(p: seq<T>, r: seq<seq<T>>, q: seq<seq<T>>)
    requires |r| > 0
    ensures [p + (r + q)[0]] + (r + q)[1..] == ([p + r[0]] + r[1..]) + q
  {
    assert (r + q)[0] == r[0];
    assert (r + q)[1..] == r[1..] + q;
  }

  /** A string without the separator is a single piece. */
  lemma {:induction false} SplitWithout(x: string, d: char)
    requires d !in x
    ensures Split(x, d) == [x]
    decreases |x|
  {
    if |x| > 0 {
      assert x[0] in x;
      assert forall c :: c in x[1..] ==> c in x;
      SplitWithout(x[1..], d);
      assert [x[0]] + x[1..] == x;
    }
  }

  /** Two separator-free pieces around one separator split into those two. */
  lemma SplitTwo(a: string, b: string, d: char)
    requires d !in a && d !in b
    ensures Split(a + [d] + b, d) == [a, b]
  {
    SplitConcat(a, b, d);
    SplitWithout(a, d);
    SplitWithout(b, d);
    assert [a] + [b] == [a, b];
  }

  /** A text that splits into two pieces is those pieces around the separator. */
  lemma SplitIntoTwo(x: string, d: char)
    requires |Split(x, d)| == 2
    ensures x == Split(x, d)[0] + [d] + Split(x, d)[1]
  {
    var p := Split(x, d);
    JoinSplit(x, d);
    assert p[1..] == [p[1]];
    assert Join(p, d) == p[0] + [d] + Join([p[1]], d);
  }

  /** Splitting then joining gives back the original string. */
  lemma {:induction false} JoinSplit(s: string, d: char)
    ensures Join(Split(s, d), d) == s
    decreases |s|
  {
    if |s| > 0 {
      JoinSplit(s[1..], d);
      var r := Split(s[1..], d);
      if s[0] == d {
        assert Split(s, d) == [""] + r;
        assert ([""] + r)[1..] == r;
        assert Join([""] + r, d) == "" + [d] + Join(r, d);
        assert [s[0]] + s[1..] == s;
      } else {
        var p := Split(s, d);
        assert p == [[s[0]] + r[0]] + r[1..];
        if |r| == 1 {
          assert Join(p, d) == [s[0]] + r[0];
          assert [s[0]] + s[1..] == s;
        } else {
          assert p[1..] == r[1..];
          assert Join(p, d) == [s[0]] + r[0] + [d] + Join(r[1..], d);
          assert Join(r, d) == r[0] + [d] + Join(r[1..], d);
          assert [s[0]] + s[1..] == s;
        }
      }
    }
  }

  /** Joining pieces that are free of the separator then splitting gives back the pieces. */
  lemma {:induction false} SplitJoin(parts: seq<string>, d: char)
    requires |parts| >= 1
    requires forall i :: 0 <= i < |parts| ==> d !in parts[i]
    ensures Split(Join(parts, d), d) == parts
    decreases |parts|
  {
    if |parts| == 1 {
      SplitWithout(parts[0], d);
    } else {
      SplitJoin(parts[1..], d);
      SplitWithout(parts[0], d);
      SplitConcat(parts[0], Join(parts[1..], d), d);
      assert [parts[0]] + parts[1..] == parts;
    }
  }

  /** A character absent from every piece and distinct from the separator is absent from the join. */
  lemma {:induction false} JoinExcludes(parts: seq<string>, d: char, c: char)
    requires c != d
    requires forall i :: 0 <= i < |parts| ==> c !in parts[i]
    ensures c !in Join(parts, d)
    decreases |parts|
  {
    if |parts| > 1 {
      JoinExcludes(parts[1..], d, c);
      assert c !in parts[0];
    }
  }

  /** There is one piece more than there are separators. */
  lemma {:induction false} SplitCount(s: string, d: char)
    ensures |Split(s, d)| == multiset(s)[d] + 1
    decreases |s|
  {
    if |s| > 0 {
      SplitCount(s[1..], d);
      assert s == [s[0]] + s[1..];
      assert multiset(s) == multiset([s[0]]) + multiset(s[1..]);
    }
  }

  /** `first, last = s.split(d, 1)`: the text before and after the first
      separator; `None` when there is none (the unpacking raises `ValueError`). */
  function SplitOnce(s: string, d: char): (r: Option<(string, string)>)
    ensures r.None? <==> d !in s
    ensures r.Some? ==> s == r.value.0 + [d] + r.value.1 && d !in r.value.0
    decreases |s|
  {
    if |s| == 0 then None
    else if s[0] == d then
      assert s == "" + [d] + s[1..];
      Some(("", s[1..]))
    else
      match SplitOnce(s[1..], d)
      case None => None
      case Some((a, b)) =>
        assert s == [s[0]] + a + [d] + b;
        Some(([s[0]] + a, b))
  }

  /** The first separator of a text is where it is: a split of `a + d + b` with `d` not in `a` gives `a` and `b`. */
  lemma SplitOnceAt(a: string, b: string, d: char)
    requires d !in a
    ensures SplitOnce(a + [d] + b, d) == Some((a, b))
  {
    var s := a + [d] + b;
    assert s[|a|] == d;
    var r := SplitOnce(s, d);
    var x, y := r.value.0, r.value.1;
    assert s[|x|] == d;
    assert forall i :: 0 <= i < |x| ==> s[i] == x[i] != d;
    assert forall i :: 0 <= i < |a| ==> s[i] == a[i] != d;
    assert |x| == |a|;
    assert x == s[..|x|] == a;
    assert y == s[|x| + 1..] == b;
  }

  /* ----- ASCII case folding ----- */

  predicate IsUpper(c: char) { 'A' <= c <= 'Z' }

  /** One character lower-cased: an ASCII capital becomes the small letter
      32 code points above it; every other character is kept. */
  function LowerChar(c: char): (r: char)
    ensures !IsUpper(r)
    ensures IsUpper(c) ==> r as int == c as int + 32
    ensures !IsUpper(c) ==> r == c
  {
    if IsUpper(c) then (c as int - 'A' as int + 'a' as int) as char else c
  }

  /** Python 2 `str.lower()` on a byte string: ASCII letters only. */
  function Lower(s: string): (r: string)
    ensures |r| == |s|
    ensures forall i :: 0 <= i < |s| ==> r[i] == LowerChar(s[i])
  {
    seq(|s|, i requires 0 <= i < |s| => LowerChar(s[i]))
  }

  lemma LowerConcat(a: string, b: string)
    ensures Lower(a + b) == Lower(a) + Lower(b)
  {
    assert forall i :: 0 <= i < |a + b| ==> Lower(a + b)[i] == (Lower(a) + Lower(b))[i];
  }

  /** A character that is no small letter is only in the lower-cased text if it was in the text. */
  lemma {:induction false} LowerExcludes(s: string, c: char)
    requires c !in s && !('a' <= c <= 'z')
    ensures c !in Lower(s)
  {
    assert forall i :: 0 <= i < |s| ==> Lower(s)[i] == LowerChar(s[i]) != c;
  }

  /** Lower-casing keeps whitespace where it is. */
  lemma {:induction false} LowerStripped(s: string)
    requires Stripped(s)
    ensures Stripped(Lower(s))
  {
  }

  /** Whitespace has no case. */
  lemma {:induction false} LowerBlank(w: string)
    requires AllSpace(w)
    ensures Lower(w) == w
  {
    assert forall i :: 0 <= i < |w| ==> !IsUpper(w[i]) by {
      assert forall i :: 0 <= i < |w| ==> IsSpace(w[i]);
    }
    LowerFixed(w);
  }

  /** Folding case a second time changes nothing. */
  lemma LowerFixed(s: string)
    requires forall i :: 0 <= i < |s| ==> !IsUpper(s[i])
    ensures Lower(s) == s
  {
  }

  /* ----- whitespace stripping ----- */

  /** The characters Python 2 `str.strip()` removes: the space, and tab, line
      feed, vertical tab, form feed and carriage return (codes 9 to 13). */
  predicate IsSpace(c: char)
  {
    c == ' ' || '\t' <= c <= '\r'
  }

  predicate Stripped(s: string)
  {
    |s| == 0 || (!IsSpace(s[0]) && !IsSpace(s[|s| - 1]))
  }

  predicate AllSpace(w: string)
  {
    forall k :: 0 <= k < |w| ==> IsSpace(w[k])
  }

  /** Where `lstrip()` cuts: the number of leading whitespace characters. */
  function FirstNonSpace(s: string): (i: nat)
    ensures i <= |s| && AllSpace(s[..i])
    ensures i < |s| ==> !IsSpace(s[i])
    decreases |s|
  {
    if |s| > 0 && IsSpace(s[0]) then
      var n := FirstNonSpace(s[1..]);
      BlankCons(s[0], s[1..][..n]);
      assert [s[0]] + s[1..][..n] == s[..n + 1];
      n + 1
    else 0
  }

  /** Where `rstrip()` cuts: the end of the text without its trailing whitespace. */
  function EndNonSpace(s: string): (j: nat)
    ensures j <= |s| && AllSpace(s[j..])
    ensures j > 0 ==> !IsSpace(s[j - 1])
    decreases |s|
  {
    if |s| > 0 && IsSpace(s[|s| - 1]) then
      var x := s[..|s| - 1];
      var n := EndNonSpace(x);
      BlankSnoc(x[n..], s[|s| - 1]);
      assert x[n..] + [s[|s| - 1]] == s[n..];
      n
    else |s|
  }

  lemma {:induction false} BlankCons(c: char, w: string)
    requires IsSpace(c) && AllSpace(w)
    ensures AllSpace([c] + w)
  {
    assert forall k :: 1 <= k < |w| + 1 ==> ([c] + w)[k] == w[k - 1];
  }

  lemma {:induction false} BlankSnoc(w: string, c: char)
    requires IsSpace(c) && AllSpace(w)
    ensures AllSpace(w + [c])
  {
    assert forall k :: 0 <= k < |w| ==> (w + [c])[k] == w[k];
  }

  /** A text with no whitespace after its leading whitespace ends is all whitespace. */
  lemma {:induction false} BlankWhenCutsCross(s: string)
    requires EndNonSpace(s) <= FirstNonSpace(s)
    ensures AllSpace(s) && FirstNonSpace(s) == |s| && EndNonSpace(s) == 0
  {
    var i, j := FirstNonSpace(s), EndNonSpace(s);
    assert forall k :: 0 <= k < i ==> s[k] == s[..i][k];
    assert forall k :: j <= k < |s| ==> s[k] == s[j..][k - j];
  }

  /** The text between the two cuts; nothing when the text is all whitespace. */
  function Cut(s: string): string
  {
    var i, j := FirstNonSpace(s), EndNonSpace(s);
    if j <= i then "" else s[i..j]
  }

  /** Python `str.strip()`: the longest factor without surrounding whitespace. */
  function Strip(s: string): (r: string)
    ensures Stripped(r)
    ensures exists i :: 0 <= i <= |s| - |r| && r == s[i..i + |r|] && AllSpace(s[..i]) && AllSpace(s[i + |r|..])
    ensures forall c :: c in r ==> c in s
    ensures Stripped(s) ==> r == s
  {
    CutFacts(s, Cut(s));
    Cut(s)
  }

  /** What `Strip` promises, stated of the cut it returns. */
  lemma {:induction false} CutFacts(s: string, r: string)
    requires r == Cut(s)
    ensures Stripped(r)
    ensures exists i :: 0 <= i <= |s| - |r| && r == s[i..i + |r|] && AllSpace(s[..i]) && AllSpace(s[i + |r|..])
    ensures forall c :: c in r ==> c in s
    ensures Stripped(s) ==> r == s
  {
    CutFactor(s);
    CutChars(s);
    CutOfStripped(s);
  }

  lemma {:induction false} CutFactor(s: string)
    ensures var r := Cut(s);
            exists i :: 0 <= i <= |s| - |r| && r == s[i..i + |r|] && AllSpace(s[..i]) && AllSpace(s[i + |r|..])
  {
    var i, j := FirstNonSpace(s), EndNonSpace(s);
    if j <= i {
      BlankWhenCutsCross(s);
      assert s[..|s|] == s && s[|s|..] == "";
      assert Cut(s) == s[|s|..|s|];
    } else {
      assert Cut(s) == s[i..i + |Cut(s)|];
    }
  }

  lemma {:induction false} CutChars(s: string)
    ensures forall c :: c in Cut(s) ==> c in s
  {
    var i, j := FirstNonSpace(s), EndNonSpace(s);
    if j > i {
      FactorChars(s, i, j);
    }
  }

  lemma {:induction false} CutOfStripped(s: string)
    ensures Stripped(s) ==> Cut(s) == s
  {
    if Stripped(s) && |s| > 0 {
      assert FirstNonSpace(s) == 0 && EndNonSpace(s) == |s|;
      assert s[0..|s|] == s;
    }
  }

  lemma {:induction false} FactorChars<T>(s: seq<T>, i: nat, j: nat)
    requires i <= j <= |s|
    ensures forall c :: c in s[i..j] ==> c in s
  {
    assert forall k :: 0 <= k < j - i ==> s[i..j][k] == s[i + k];
  }

  lemma {:induction false} BlankUncons(x: string)
    requires |x| > 0
    ensures AllSpace(x) <==> IsSpace(x[0]) && AllSpace(x[1..])
  {
    assert forall k :: 1 <= k < |x| ==> x[k] == x[1..][k - 1];
  }

  lemma {:induction false} BlankUnsnoc(x: string)
    requires |x| > 0
    ensures AllSpace(x) <==> IsSpace(x[|x| - 1]) && AllSpace(x[..|x| - 1])
  {
    assert forall k :: 0 <= k < |x| - 1 ==> x[k] == x[..|x| - 1][k];
  }

  /** The pieces either side of one element. */
  lemma Around<T>(a: seq<T>, x: T, b: seq<T>)
    ensures var r := a + [x] + b; r[..|a|] == a && r[|a|] == x && r[|a| + 1..] == b
  {
    var r := a + [x] + b;
    assert r[..|a|] == a;
    assert r[|a| + 1..] == b;
  }

  /** A sequence is the pieces either side of one of its elements. */
  lemma Rejoin<T>(r: seq<T>, i: nat)
    requires i < |r|
    ensures r == r[..i] + [r[i]] + r[i + 1..]
  {
  }

  lemma HeadTail<T>(x: seq<T>, z: seq<T>)
    requires |x| > 0
    ensures (x + z)[0] == x[0] && (x + z)[1..] == x[1..] + z
  {
  }

  lemma InitLast<T>(z: seq<T>, x: seq<T>)
    requires |x| > 0
    ensures (z + x)[|z + x| - 1] == x[|x| - 1] && (z + x)[..|z + x| - 1] == z + x[..|x| - 1]
  {
  }

  /** Leading whitespace of a concatenation: the front's, and the back's too when the front is blank. */
  lemma {:induction false} FirstNonSpaceAppend(x: string, z: string)
    ensures FirstNonSpace(x + z) == if AllSpace(x) then |x| + FirstNonSpace(z) else FirstNonSpace(x)
    decreases |x|
  {
    if |x| == 0 {
      assert x + z == z;
    } else {
      HeadTail(x, z);
      BlankUncons(x);
      if IsSpace(x[0]) {
        FirstNonSpaceAppend(x[1..], z);
      }
    }
  }

  /** Trailing whitespace of a concatenation: the back's, and the front's too when the back is blank. */
  lemma {:induction false} EndNonSpaceAppend(z: string, x: string)
    ensures EndNonSpace(z + x) == if AllSpace(x) then EndNonSpace(z) else |z| + EndNonSpace(x)
    decreases |x|
  {
    if |x| == 0 {
      assert z + x == z;
    } else {
      InitLast(z, x);
      BlankUnsnoc(x);
      if IsSpace(x[|x| - 1]) {
        EndNonSpaceAppend(z, x[..|x| - 1]);
      }
    }
  }

  /** Surrounding whitespace does not change what `strip()` leaves. */
  lemma {:induction false} StripPadded(w1: string, t: string, w2: string)
    requires AllSpace(w1) && AllSpace(w2)
    ensures Strip(w1 + t + w2) == Strip(t)
  {
    CutPadded(w1, t, w2);
  }

  lemma {:induction false} CutPadded(w1: string, t: string, w2: string)
    requires AllSpace(w1) && AllSpace(w2)
    ensures Cut(w1 + t + w2) == Cut(t)
  {
    if AllSpace(t) {
      CutBlank(w1 + t + w2);
      CutBlank(t);
      BlankConcat(w1, t);
      BlankConcat(w1 + t, w2);
    } else {
      FirstOfPadded(w1, t, w2);
      EndOfPadded(w1, t, w2);
      CutShifted(w1, t, w2);
    }
  }

  /** Whitespace cuts to nothing. */
  lemma {:induction false} CutBlank(w: string)
    ensures AllSpace(w) ==> Cut(w) == ""
  {
    if AllSpace(w) {
      BlankEnd(w);
    }
  }

  /** A cut whose two ends move by the length of the front is the same factor. */
  lemma {:induction false} CutShifted(w1: string, t: string, w2: string)
    requires FirstNonSpace(w1 + t + w2) == |w1| + FirstNonSpace(t)
    requires EndNonSpace(w1 + t + w2) == |w1| + EndNonSpace(t)
    ensures Cut(w1 + t + w2) == Cut(t)
  {
    var i, j := FirstNonSpace(t), EndNonSpace(t);
    CutBetween(w1 + t + w2, |w1| + i, |w1| + j);
    CutBetween(t, i, j);
    if j > i {
      SliceOfMiddle(w1, t, w2, i, j);
    }
  }

  lemma {:induction false} CutBetween(s: string, i: nat, j: nat)
    requires FirstNonSpace(s) == i && EndNonSpace(s) == j
    ensures Cut(s) == if j <= i then "" else s[i..j]
  {
  }

  lemma {:induction false} BlankConcat(a: string, b: string)
    requires AllSpace(a) && AllSpace(b)
    ensures AllSpace(a + b)
  {
    assert forall k :: |a| <= k < |a + b| ==> (a + b)[k] == b[k - |a|];
  }

  lemma {:induction false} BlankEnd(x: string)
    requires AllSpace(x)
    ensures EndNonSpace(x) == 0
  {
  }

  lemma {:induction false} FirstOfPadded(w1: string, t: string, w2: string)
    requires AllSpace(w1) && !AllSpace(t)
    ensures FirstNonSpace(w1 + t + w2) == |w1| + FirstNonSpace(t)
  {
    ConcatAssoc(w1, t, w2);
    FirstNonSpaceAppend(w1, t + w2);
    FirstNonSpaceAppend(t, w2);
  }

  lemma {:induction false} EndOfPadded(w1: string, t: string, w2: string)
    requires AllSpace(w2) && !AllSpace(t)
    ensures EndNonSpace(w1 + t + w2) == |w1| + EndNonSpace(t)
  {
    EndNonSpaceAppend(w1 + t, w2);
    EndNonSpaceAppend(w1, t);
  }

  lemma {:induction false} SliceOfMiddle<T>(a: seq<T>, t: seq<T>, b: seq<T>, i: nat, j: nat)
    requires i <= j <= |t|
    ensures (a + t + b)[|a| + i..|a| + j] == t[i..j]
  {
    assert forall k :: 0 <= k < j - i ==> (a + t + b)[|a| + i..|a| + j][k] == t[i..j][k];
  }

  /* ----- decimal numbers ----- */

  predicate IsDigit(c: char) { '0' <= c <= '9' }

  predicate AllDigits(s: string)
  {
    forall i :: 0 <= i < |s| ==> IsDigit(s[i])
  }

  function DigitValue(c: char): nat
    requires IsDigit(c)
  {
    c as int - '0' as int
  }

  function DigitChar(n: nat): (c: char)
    requires n < 10
    ensures IsDigit(c) && DigitValue(c) == n
  {
    ('0' as int + n) as char
  }

  /** The value of a string of decimal digits (leading zeros allowed). */
  function DigitsValue(s: string): nat
    requires AllDigits(s)
    decreases |s|
  {
    if |s| == 0 then 0 else 10 * DigitsValue(s[..|s| - 1]) + DigitValue(s[|s| - 1])
  }

  /** `int(s)` for a decimal numeral: surrounding whitespace is ignored, as
      Python ignores it; `None` where Python raises `ValueError`. */
  function ParseNat(s: string): (r: Option<nat>)
    ensures Stripped(s) ==> (r.Some? <==> |s| > 0 && AllDigits(s))
  {
    var t := Cut(s);
    CutOfStripped(s);
    if |t| > 0 && AllDigits(t) then Some(DigitsValue(t)) else None
  }

  /** A text `int` reads holds only digits and whitespace. */
  predicate NumeralChars(s: string)
  {
    forall k :: 0 <= k < |s| ==> IsDigit(s[k]) || IsSpace(s[k])
  }

  lemma {:induction false} ParsedAlphabet(s: string)
    requires ParseNat(s).Some?
    ensures NumeralChars(s)
  {
    var i, j := FirstNonSpace(s), EndNonSpace(s);
    assert i < j && AllDigits(s[i..j]);
    PaddedDigits(s, i, j - i);
  }

  /** Digits with whitespace either side. */
  lemma {:induction false} PaddedDigits(s: string, i: nat, n: nat)
    requires i + n <= |s|
    requires AllDigits(s[i..i + n]) && AllSpace(s[..i]) && AllSpace(s[i + n..])
    ensures NumeralChars(s)
  {
    forall k | 0 <= k < |s|
      ensures IsDigit(s[k]) || IsSpace(s[k])
    {
      if k < i {
        assert s[k] == s[..i][k];
      } else if k < i + n {
        assert s[k] == s[i..i + n][k - i];
      } else {
        assert s[k] == s[i + n..][k - i - n];
      }
    }
  }

  /** Whitespace around a numeral does not change the number read. */
  lemma {:induction false} ParseNatPadded(w1: string, t: string, w2: string)
    requires AllSpace(w1) && AllSpace(w2)
    ensures ParseNat(w1 + t + w2) == ParseNat(t)
  {
    StripPadded(w1, t, w2);
  }

  /** `'%d' % n` for a non-negative `n`: the canonical decimal numeral. */
  function NatToString(n: nat): (s: string)
    ensures |s| > 0 && AllDigits(s)
    ensures DigitsValue(s) == n
    ensures |s| > 1 ==> s[0] != '0'
    decreases n
  {
    if n < 10 then [DigitChar(n)]
    else
      var prefix := NatToString(n / 10);
      var s := prefix + [DigitChar(n % 10)];
      assert s[..|s| - 1] == prefix;
      s
  }

  /** Printing a number and reading it back gives the number. */
  /** A digit string reads as its digits' value. */
  lemma ParseDigits(t: string)
    requires |t| > 0 && AllDigits(t)
    ensures ParseNat(t) == Some(DigitsValue(t))
  {
    assert Stripped(t) by {
      assert IsDigit(t[0]) && IsDigit(t[|t| - 1]);
    }
    CutOfStripped(t);
  }

  /** One digit reads as its value. */
  lemma ParseNatDigit(d: char)
    requires IsDigit(d)
    ensures ParseNat([d]) == Some(DigitValue(d))
  {
    ParseDigits([d]);
    assert [d][..0] == "";
  }

  /** Appending a digit multiplies by ten and adds it: with `ParseNatDigit`
      this fixes the number every digit string reads as. */
  lemma ParseNatAppend(t: string, d: char)
    requires |t| > 0 && AllDigits(t) && IsDigit(d)
    ensures ParseNat(t + [d]) == Some(10 * ParseNat(t).value + DigitValue(d))
  {
    var u := t + [d];
    ParseDigits(t);
    ParseDigits(u);
    assert u[..|u| - 1] == t;
  }

  /** Leading zeros do not change the number, as `int("05") == 5`. */
  lemma ParseNatLeadingZero(t: string)
    requires |t| > 0 && AllDigits(t)
    ensures ParseNat("0" + t) == ParseNat(t)
  {
    ParseDigits(t);
    ParseDigits("0" + t);
    LeadingZeroValue(t);
  }

  lemma {:induction false} LeadingZeroValue(t: string)
    requires AllDigits(t)
    ensures AllDigits("0" + t) && DigitsValue("0" + t) == DigitsValue(t)
    decreases |t|
  {
    if |t| > 0 {
      var u := "0" + t;
      assert u[..|u| - 1] == "0" + t[..|t| - 1];
      LeadingZeroValue(t[..|t| - 1]);
    } else {
      assert ("0" + t)[..0] == "";
    }
  }

  lemma ParseNatToString(n: nat)
    ensures ParseNat(NatToString(n)) == Some(n)
  {
    var s := NatToString(n);
    assert Stripped(s) by {
      assert IsDigit(s[0]) && IsDigit(s[|s| - 1]);
    }
    CutOfStripped(s);
  }
}

=== FILE: wrappers.dfy ===
/** Failure-carrying result types shared by the whole model. */
module Wrappers {

  /** A value that may be absent (Python's `None`). */
  datatype Option<+T> = None | Some(value: T)

  /** Either a value or the error that replaced it (a raised exception). */
  datatype Result<+T, +E> = Ok(value: T) | Err(error: E)

  /** Success without a value, or the error that stopped it. */
  datatype Outcome<+E> = Pass | Fail(error: E)
}
